=== FILE: README.md ===
# Vote collection core, modelled in Dafny

This project models the sequential logic of an electronic voting system. The
system has four parts:

- **A voting kiosk.** A Python/tkinter application shows the ballot and encodes the
  chosen vote. It shows the vote's digest as a QR code, then scans the voter's
  phone for a signed credential. Once a credential is valid, the kiosk sends the
  vote.
- **A ballot registry.** It holds the party list of the voting application.
- **A phone app.** It renders the voter's signature as a QR bitmap.
- **A Hyperledger Fabric chaincode.** It collects BFV-encrypted one-hot ballots and
  adds each of them homomorphically into an encrypted tally.

The modules follow those parts:

| module | file | models |
|---|---|---|
| `Wrappers` | `wrappers.dfy` | `Option` and `Result` |
| `Arith` | `arith.dfy` | the multiplication facts behind image indexing and remainders |
| `Ledger` | `ledger.dfy` | the in-memory `ChaincodeStub` of the chaincode's unit tests: `putState`, `getState`, `deleteState` and `getStateByRange` over a JavaScript object |
| `Homomorphic` | `homomorphic.dfy` | a ciphertext as the 4096 batching slots it decrypts to; `evaluator.add` as slot-wise addition modulo the plain modulus |
| `VoteCollector` | `vote_collector.dfy` | the chaincode: `VotingStageEnum`, `instantiate`, `submitVote` and `retrieveTally`; transactions, runs, and the tally law |
| `VoteCollectorScenarios` | `vote_collector_scenarios.dfy` | the unit tests' scenarios, stated as lemmas over the model |
| `Ballot` | `ballot.dfy` | `Ballot.load`, `get_parties` and `get_party`: a lazily loaded registry with three last-wins indices |
| `Base64` | `base64.dfy` | standard padded base64 (section 4 of RFC 4648), which the kiosk uses for its QR payload, with its decoder |
| `Kiosk` | `kiosk.dfy` | the kiosk controller: pages, button events, `encode_vote`, `send_vote` and the scan loop |
| `ChaincodeArgs` | `chaincode_args.dfy` | `printArgs`, as the JSON object its text denotes |
| `QrBitmap` | `qr_bitmap.dfy` | `TextToImageEncode`: the pixel-fill loop, the null-on-error path, and the fixed-stride `setPixels` |

Some operations stay abstract, because they are crypto, device or library calls:

- the voting machine's `decoder` and `is_vote_valid`, its `encode_vote`, and its `vote`;
- the ZXing writer;
- the colour resources.

The decoder, the validity check, the writer and the colours are function-valued
parameters, or fields of a parameter. Each is a function of its arguments. The
writer is also assumed to end in one of three ways: a bit matrix, an
`IllegalArgumentException` or a `WriterException`. Nothing else is assumed about
any of them. What `encode_vote` returns is part of the party
button's event, so each press may bring a fresh encoding. A call of `vote` is
recorded as a `Submission`. The camera is a finite sequence of frames.

## Model

| member | source | states |
|---|---|---|
| Ledger.Empty | src/blockchain/chaincode/vote_collector/test/vote_collector.test.js:132-138 | before any `putState` every key reads as `undefined` (`None`); with `PutState` and `DeleteState` this is the contract of `Ledger.GetState` (`getState`) |
| Ledger.PutState | src/blockchain/chaincode/vote_collector/test/vote_collector.test.js:124-130 | `getState(k)` after `putState(k, v)` is `v`; every other key is unchanged; a new key goes last in enumeration order, and an existing key keeps its place |
| Ledger.RemoveKey | src/blockchain/chaincode/vote_collector/test/vote_collector.test.js:141-146 | the enumeration order after a `delete` holds exactly the other keys, and is unchanged when the key was not there |
| Ledger.RemoveKeyAt | src/blockchain/chaincode/vote_collector/test/vote_collector.test.js:141-146 | deleting the key at position `i` of the enumeration order closes the gap: the keys before and after it keep their relative order, as JavaScript's `delete` keeps it |
| Ledger.DeleteState | src/blockchain/chaincode/vote_collector/test/vote_collector.test.js:141-146 | `deleteState(k)` removes `k` only, leaves every other key's value and relative enumeration order as it was, and resolves to `k` |
| Ledger.GetStateByRange | src/blockchain/chaincode/vote_collector/test/vote_collector.test.js:148-161 | the range scan yields one value per enumerated key, each being that key's stored value, and every stored value is yielded at its key's position |
| Ledger.RangeYieldsOnePerKey | src/blockchain/chaincode/vote_collector/test/vote_collector.test.js:148-161 | the scan yields exactly as many values as there are stored keys |
| Ledger.RangeAfterDelete | src/blockchain/chaincode/vote_collector/test/vote_collector.test.js:141-161 | after `deleteState(k)` the scan yields the old values with `k`'s value taken out and the rest in the same order; deleting an absent key leaves the scan as it was |
| Ledger.RangeAfterPut | src/blockchain/chaincode/vote_collector/test/vote_collector.test.js:148-161 | after writing a new key the scan yields the old values and then the new one; after overwriting a key the new value replaces the old one in place |
| Homomorphic.Load | src/blockchain/chaincode/vote_collector/lib/vote_collector.js:110-114 | `CipherText.load` succeeds exactly on a ciphertext of 4096 slots, and then yields the slots that ciphertext was saved with |
| Homomorphic.CountIsMultiplicity | src/blockchain/chaincode/vote_collector/test/vote_collector.test.js:232-245 | the count for a party is the party's multiplicity among the ballots |
| Homomorphic.CountVectorOrderIndependent | src/blockchain/chaincode/vote_collector/test/vote_collector.test.js:232-245 | two ballot sequences with the same multiset of parties have the same expected tally |
| Homomorphic.AddVoteToTally | src/blockchain/chaincode/vote_collector/lib/vote_collector.js:109-120 | this is the contract of `Homomorphic.Add` (`evaluator.add`): adding a one-hot ballot for a party to a correct tally of some ballots gives a correct tally of those ballots plus that one |
| Homomorphic.SingleVoteIsTally | src/blockchain/chaincode/vote_collector/lib/vote_collector.js:99-104 | a one-hot ballot is the correct tally of itself alone |
| VoteCollector.LoadValue | src/blockchain/chaincode/vote_collector/lib/vote_collector.js:110-111 | the stored tally loads exactly when it is a string holding a loadable ciphertext, and then yields that ciphertext's slots |
| VoteCollector.SavedTallyLoads | src/blockchain/chaincode/vote_collector/lib/vote_collector.js:110-120 | a tally stored with `save()` at line 120 loads back at line 111 as the same 4096 slots |
| VoteCollector.Instantiate | src/blockchain/chaincode/vote_collector/lib/vote_collector.js:15-17 | `instantiate` sets "stage" to ONGOING (1) and changes no other key |
| VoteCollector.SubmitVote | src/blockchain/chaincode/vote_collector/lib/vote_collector.js:91-133 | it fails with "voting is not ongoing" exactly when the stage is not ONGOING, whether unset or otherwise; it writes nothing but "vote_tally"; an absent or empty tally is replaced by the ballot verbatim; otherwise it succeeds exactly when both ciphertexts load, and then stores their slot-wise sum |
| VoteCollector.RetrieveTally | src/blockchain/chaincode/vote_collector/lib/vote_collector.js:135-142 | returns a value exactly when "vote_tally" is stored |
| VoteCollector.Execute | src/blockchain/chaincode/vote_collector/lib/vote_collector.js:15-142 | an invocation errs only when `submitVote` errs, and then commits nothing; `retrieveTally` returns the stored tally, has no stage check and writes nothing; only `instantiate` touches "stage"; ONGOING is kept |
| VoteCollector.OngoingIsPermanent | src/blockchain/chaincode/vote_collector/lib/vote_collector.js:7-17 | once voting is ongoing, every sequence of invocations leaves it ongoing |
| VoteCollector.StageIsUnsetOrOngoing | src/blockchain/chaincode/vote_collector/lib/vote_collector.js:7-17 | from an empty ledger, "stage" is only ever unset or ONGOING: CLOSED and ENDED are never stored |
| VoteCollector.FirstBallotStartsTally | src/blockchain/chaincode/vote_collector/lib/vote_collector.js:99-104 | the first ballot submitted while no tally is stored becomes the correct tally of that one ballot |
| VoteCollector.NextBallotExtendsTally | src/blockchain/chaincode/vote_collector/lib/vote_collector.js:109-120 | submitting a ballot onto a correct tally of some ballots stores a correct tally that includes it |
| VoteCollector.TallyCountsBallots | src/blockchain/chaincode/vote_collector/lib/vote_collector.js:91-133 | after opening, submitting one-hot ballots for any parties never fails, and the stored tally's slot i is the number of ballots for party i, modulo the plain modulus |
| VoteCollector.TallyIndependentOfOrder | src/blockchain/chaincode/vote_collector/test/vote_collector.test.js:228-255 | any interleaving of the same ballots leaves the same tally |
| VoteCollectorScenarios.ScenarioPartyCounts | src/blockchain/chaincode/vote_collector/test/vote_collector.test.js:232-245 | the test's ten ballots are 2 for party 0, 3 for party 2 and 5 for party 4 |
| VoteCollectorScenarios.ScenarioCounts | src/blockchain/chaincode/vote_collector/test/vote_collector.test.js:251-255 | a tally of those counts begins 2, 0, 3, 0, 5 |
| VoteCollectorScenarios.RetrieveTallyScenario | src/blockchain/chaincode/vote_collector/test/vote_collector.test.js:228-255 | the test's scenario: after `instantiate`, the ten submissions succeed, and the retrieved tally has 4096 slots beginning 2, 0, 3, 0, 5 |
| VoteCollectorScenarios.SubmitBeforeInstantiateFails | src/blockchain/chaincode/vote_collector/test/vote_collector.test.js:176-184 | submitting before `instantiate` fails with "voting is not ongoing" |
| Ballot.IndexKeys | src/voting_app/_old/ballot.py:16-19 | an index holds exactly the keys that some party of the list carries |
| Ballot.IndexLastWins | src/voting_app/_old/ballot.py:16-19 | each indexed key maps to the last party of the list that carries it |
| Ballot.Load | src/voting_app/_old/ballot.py:9-19 | `load` keeps the file's list, and indexes it by id, by name and by abbreviation, later duplicates winning |
| Ballot.EnsureLoaded | src/voting_app/_old/ballot.py:6-7 | the file is read only while nothing is loaded; a loaded registry is kept as it is |
| Ballot.LoadedOnce | src/voting_app/_old/ballot.py:29-30 | a second use ignores the file entirely: the registry is loaded at most once |
| Ballot.GetParties | src/voting_app/_old/ballot.py:22-25 | `get_parties` returns the loaded list in file order, loading it first if needed |
| Ballot.GetParty | src/voting_app/_old/ballot.py:28-44 | the first criterion that is not `None` decides; it succeeds exactly when some party carries the key, and then returns the last such party; an unknown id, name or abbreviation fails with "Invalid party ID", "Invalid party name" or "Invalid party abrv."; with no criterion the result is `None` |
| Ballot.GetPartyPrecedence | src/voting_app/_old/ballot.py:32-42 | a given id (even a falsy one such as 0) makes name and abbreviation irrelevant, and a given name makes the abbreviation irrelevant |
| Ballot.LookupMatchesKey | src/voting_app/_old/ballot.py:32-42 | a party found is a party of the list whose looked-up field equals the key |
| Ballot.ListedIdsResolve | src/voting_app/_old/ballot.py:16-17 | every party of the list can be looked up by its own id |
| Base64.Encode | src/voting_machine/interface.py:73 | the text has four characters for every three bytes or part thereof |
| Base64.DecodeEncode | src/voting_machine/interface.py:73 | decoding the base64 text of any byte string gives that byte string back |
| Base64.EncodeInjective | src/voting_machine/interface.py:73 | distinct digests never share a QR payload |
| Kiosk.Initial | src/voting_machine/interface.py:39-50 | the kiosk starts on the vote page, with nothing sent |
| Kiosk.FirstAccepted | src/voting_machine/interface.py:192-204 | the index found is the least index of a frame with both credentials that the machine accepts for the kiosk's own encrypted vote; if no index is found, no frame is acceptable |
| Kiosk.ScanLoop | src/voting_machine/interface.py:169-204 | the loop skips frames with a missing signature or certificate and frames the machine rejects; it stops at the first acceptable frame and returns its credentials; if it finds nothing, no frame was acceptable; it agrees with `FirstAccepted` |
| Kiosk.EncodeVote | src/voting_machine/interface.py:70-74 | `encode_vote` keeps the machine's encrypted vote and signature, and the QR payload decodes to exactly the digest |
| Kiosk.StepContract | src/voting_machine/interface.py:99-221 | this is the contract of `Kiosk.Step`, the button and scan handlers: every event keeps the kiosk consistent and moves along the page flow; a vote is sent exactly when the success page is entered, at most one per event; it carries the stored encrypted vote and machine signature, unchanged, with a credential the machine accepted; the encoded vote changes only when a party is chosen |
| Kiosk.PressPartyContract | src/voting_machine/interface.py:99-109 | a party button leads to the ballot page exactly when the id is on the ballot, with nothing sent; the encoding `encode_vote` returned for this press is then stored, and its QR payload decodes to that encoding's digest; an unknown id changes nothing |
| Kiosk.ListedPartyProceeds | src/voting_machine/interface.py:91-96 | every button built from the party list reaches the ballot page |
| Kiosk.SkipDoesNothing | src/voting_machine/interface.py:129 | the skip button neither sends nor changes page |
| Kiosk.ResetReturnsToVotePage | src/voting_machine/interface.py:218-221 | reset on the success page returns to the vote page and keeps everything else |
| Kiosk.ScanOutcome | src/voting_machine/interface.py:131-204 | this is the contract of `Kiosk.Scan`, the `begin_scanning` loop: "AM SCANAT" opens the scan page, whose loop reaches the success page exactly when some frame is acceptable, and otherwise stays on the scan page with nothing sent |
| Kiosk.RejectedFramesKeepScanning | src/voting_machine/interface.py:192-199 | frames that are all missing a credential or all rejected change nothing: there is no terminal rejection |
| Kiosk.FirstAcceptedAppend | src/voting_machine/interface.py:169-199 | the first acceptable frame of two batches in sequence lies in the first batch, or is the second batch's first acceptable frame, shifted |
| Kiosk.ScanInBatches | src/voting_machine/interface.py:169-204 | the scan loop's decision does not depend on how its frames are batched |
| Kiosk.StepKeepsInv | src/voting_machine/interface.py:76-78 | each event preserves the invariant that every vote sent was accepted and the success page follows the current vote's send |
| Kiosk.RunKeepsInv | src/voting_machine/interface.py:39-221 | the invariant holds from start-up under any sequence of events |
| Kiosk.SucessMeansValidVoteSent | src/voting_machine/interface.py:197-204 | the success page is only shown after the kiosk's own vote and signature were sent with a credential the machine accepted |
| Kiosk.AtMostOneSendPerEvent | src/voting_machine/interface.py:201-204 | the votes sent only grow, by at most one per event |
| ChaincodeArgs.Stringify | src/voting_machine/utils.js:11-17 | `JSON.stringify` gives no JSON exactly for `undefined` and functions |
| ChaincodeArgs.PrintArgs | src/voting_machine/utils.js:8-18 | the keys are "function" then "Args", or "Args" alone. For a non-array `args`, "Args" is `[]` and "function" is present exactly when `func` is truthy and not a function. For an array `args`, "Args" is its JSON and "function" is present unless `func` is `undefined` or a function. A present "function" holds `func`'s JSON |
| ChaincodeArgs.StringifyToJs | src/voting_machine/utils.js:17 | every JSON value survives stringification of the JavaScript value it denotes |
| ChaincodeArgs.ArgsPassThrough | src/voting_machine/utils.js:17 | an array of JSON values is passed through unchanged as "Args" |
| QrBitmap.Rendered | src/voting_app/app/src/main/java/com/example/votesigner/QRCodeSignatureActivity.java:64-74 | the row-major image of a matrix has width × height pixels |
| QrBitmap.RenderedAt | src/voting_app/app/src/main/java/com/example/votesigner/QRCodeSignatureActivity.java:66-74 | cell (x, y) lies at index `y * width + x`, inside the array, and is black exactly when the module is set |
| QrBitmap.EveryIndexIsACell | src/voting_app/app/src/main/java/com/example/votesigner/QRCodeSignatureActivity.java:66-71 | every index below width × height is some cell's `y * width + x`: no pixel is left unpainted |
| QrBitmap.CellIndexInjective | src/voting_app/app/src/main/java/com/example/votesigner/QRCodeSignatureActivity.java:66-71 | distinct cells have distinct indices: no pixel is painted twice |
| QrBitmap.FillPixels | src/voting_app/app/src/main/java/com/example/votesigner/QRCodeSignatureActivity.java:60-74 | the nested loop's array has width × height entries and is exactly the row-major image: row y of the matrix, left to right, at offset `y * width`, so that (by `RenderedAt`) `pixels[y * width + x]` is black if bit (x, y) is set and white otherwise |
| QrBitmap.SetPixels | src/voting_app/app/src/main/java/com/example/votesigner/QRCodeSignatureActivity.java:77 | `setPixels` throws `IllegalArgumentException` exactly when the stride is shorter than the width, and `ArrayIndexOutOfBoundsException` exactly when the last scan line leaves the array; otherwise row y holds the pixels from index `y * stride` |
| QrBitmap.FixedStrideLayout | src/voting_app/app/src/main/java/com/example/votesigner/QRCodeSignatureActivity.java:75-77 | with the fixed stride of 500, the painted array is accepted exactly when the matrix is 500 wide, or is a single row at most 500 wide; the bitmap then shows every module where the matrix has it |
| QrBitmap.TextToImageEncode | src/voting_app/app/src/main/java/com/example/votesigner/QRCodeSignatureActivity.java:47-79 | the writer is asked for a 500 × 500 symbol; the result is `null` exactly when the writer rejects its arguments, and a `WriterException` escapes exactly when the writer fails; a bitmap drawn shows every module of the matrix; for a positive-size matrix whose width × height fits in a Java `int`, a bitmap is drawn exactly when the fixed-stride layout fits |

## Left out

- SEAL internals. This covers `initHEContext`, the encryption parameter and key files, and the test's `decryptVote`. A ciphertext is the slot vector it decrypts to. Noise growth, and a ciphertext that decrypts wrongly, are not modelled.
- The plain modulus is a 32-bit value congruent to 1 modulo 8192, but its primality is not modelled, because no property here depends on it.
- VoteCollector.TallyCountsBallots: counts are stated modulo the plain modulus, as the decryption yields them. That a count stays below the modulus is a bound on the number of voters, which the model does not impose.
- `he_server.js`, `invoke` in `utils.js`, `SignVoteActivity.java`, `machine.py`, `qr_code_generator.py` and `test.py`. These are network, shell, platform-crypto and UI code. They are not part of this model.
- `machine.py` does not provide the calls the kiosk makes as the kiosk uses them. Its `encode_vote(data)` returns `data` itself, while the kiosk unpacks three values from it. Its `decoder` returns one value where the kiosk unpacks two, and it has no `is_vote_valid`. So `decoder` and `is_vote_valid` are uninterpreted fields of `Kiosk.Machine`. What `encode_vote` returns arrives with the party button's event (`PressParty(id, encoding)`). The machine's `vote` is not performed either: a send is recorded as a `Submission`.
- The kiosk imports `Ballot` from a `ballot` module that is not part of this model. The registry modelled is `src/voting_app/_old/ballot.py`, and the kiosk's party buttons look parties up through it.
- Kiosk: rendering, the camera device, QR image generation, thumbnailing and Tk widget management are left out. The camera's endless stream is a finite sequence of frames handed to the loop in batches. A scan that never finds an acceptable frame appears as a kiosk that stays on the scan page.
- The party button's `print` of the party name is left out. Only its effect is kept: the assertion failure that an unknown id raises aborts the button handler.
- Ballot: reading and parsing `ballot.json` is left out. The file is a list of well-formed parties; a missing file or malformed JSON is not modelled. Python's `-O` flag, which strips the `assert` statements, is not modelled.
- Ledger: `states` is treated as an object without a prototype. Keys that name `Object.prototype` members (`__proto__`, `toString`, `constructor`, ...) are not modelled. On the plain object, such a key reads an inherited value where the model reads `undefined`. `putState("__proto__", v)` with a primitive `v` stores nothing there, while the model stores `v`.
- Ledger.GetStateByRange: the start and end keys of the range are ignored, as the stub ignores them. The model yields the state as it stands when the iteration starts. The stub copies the object inside its generator, so a write between the call and the first `next()` is seen. The model does not distinguish the call from the first iteration.
- Ledger: JavaScript enumerates integer-like property keys in numeric order before the others. The model keeps insertion order for every key; the chaincode only uses "stage" and "vote_tally".
- ChaincodeArgs: numbers are integers. NaN, infinities, `toJSON`, BigInt, symbols and cyclic values are not modelled. The output is the JSON object, not its text.
- QrBitmap: `ARGB_4444` colour quantization is left out, and so is the bitmap's colour storage beyond the ints written.
- QrBitmap.SetPixels: Java's 32-bit overflow in `setPixels`' own bounds arithmetic is not modelled. This only matters for images taller than about four million rows.
- QrBitmap.TextToImageEncode: when `width * height` overflows a Java `int`, the method's behaviour is abstracted as `SizeOverflow`. The model does not wrap the product. The ZXing QR writer is not part of this model. A writer matrix of any width other than 500, and of more than one row, is refused by `setPixels`, as `FixedStrideLayout` shows. A null `Value` is not modelled: the text is a `string`, so the `NullPointerException` the writer raises on null contents, which the `catch (WriterException e)` does not catch, has no counterpart. Runtime exceptions of the writer other than `IllegalArgumentException` are not modelled either.
- The `async`/`await` sequencing of the chaincode is purely sequential. Each invocation is one atomic step.

=== FILE: arith.dfy ===
/**
  Multiplication facts the solver does not find on its own: the index
  arithmetic of row-major images and the uniqueness of remainders both rest on
  them.
*/
module Arith {
  /** One more row adds one more width. */
  lemma MulStep(a: int, b: int)
    ensures (a + 1) * b == a * b + b
  {
  }

  /** Multiplying by a non-negative factor keeps the order. */
  lemma MulMono(a: int, b: int, c: int)
    requires 0 <= a <= b && 0 <= c
    ensures a * c <= b * c
  {
    assert (b - a) * c >= 0;
    MulStep(a, c);
  }

  lemma MulDistributes(a: int, b: int, t: int)
    ensures (a - b) * t == a * t - b * t
  {
  }
}

=== FILE: ballot.dfy ===
/**
  The ballot registry of the voting application: the party list read from
  `ballot.json` once, on first use, and three dictionaries indexing it by id,
  by name and by abbreviation.
*/
module Ballot {
  import opened Wrappers

  /** One entry of `ballot.json`. */
  datatype Party = Party(id: int, name: string, abrv: string)

  /** `Ballot.parties` with its three indices. */
  datatype Registry = Registry(
    parties: seq<Party>,
    byId: map<int, Party>,
    byName: map<string, Party>,
    byAbrv: map<string, Party>)

  /** The class attributes: `Unloaded` while `hasattr(Ballot, "parties")` is false. */
  datatype Cache = Unloaded | Loaded(registry: Registry)

  /** The three keys `load` indexes by. */
  function IdOf(p: Party): int { p.id }
  function NameOf(p: Party): string { p.name }
  function AbrvOf(p: Party): string { p.abrv }

  const InvalidId: string := "Invalid party ID"
  const InvalidName: string := "Invalid party name"
  const InvalidAbrv: string := "Invalid party abrv."

  /** Some party of `ps` has key `k`. */
  ghost predicate HasKey<K(!new)>(ps: seq<Party>, key: Party -> K, k: K) {
    exists i :: 0 <= i < |ps| && key(ps[i]) == k
  }

  /** `p` is the last party of `ps` whose key is `k`. */
  ghost predicate LastWith<K(!new)>(ps: seq<Party>, key: Party -> K, k: K, p: Party) {
    exists i :: 0 <= i < |ps| && ps[i] == p && key(p) == k &&
      forall j :: i < j < |ps| ==> key(ps[j]) != k
  }

  /** `m` indexes `ps` by `key`, a later party replacing an earlier one with the same key. */
  ghost predicate IndexesLastWins<K(!new)>(ps: seq<Party>, key: Party -> K, m: map<K, Party>) {
    && (forall k :: k in m <==> HasKey(ps, key, k))
    && (forall k :: k in m ==> LastWith(ps, key, k, m[k]))
  }

  /** The loop of `load` for one dictionary: `index[key(party)] = party` for each party in turn. */
  function Index<K(!new)>(ps: seq<Party>, key: Party -> K): map<K, Party>
  {
    if |ps| == 0 then map[]
    else Index(ps[..|ps| - 1], key)[key(ps[|ps| - 1]) := ps[|ps| - 1]]
  }

  /** Every key of the list is indexed, and nothing else. */
  lemma {:induction false} IndexKeys<K(!new)>(ps: seq<Party>, key: Party -> K)
    ensures forall k :: k in Index(ps, key) <==> HasKey(ps, key, k)
  {
    if |ps| > 0 {
      var init := ps[..|ps| - 1];
      var last := ps[|ps| - 1];
      IndexKeys(init, key);
      forall k ensures k in Index(ps, key) <==> HasKey(ps, key, k) {
        if HasKey(init, key, k) {
          var i :| 0 <= i < |init| && key(init[i]) == k;
          assert key(ps[i]) == k;
        }
        if HasKey(ps, key, k) && k != key(last) {
          var i :| 0 <= i < |ps| && key(ps[i]) == k;
          assert i < |init| && key(init[i]) == k;
        }
        if k == key(last) {
          assert key(ps[|ps| - 1]) == k;
        }
      }
    }
  }

  /** Each key maps to the last party carrying it. */
  lemma {:induction false} IndexLastWins<K(!new)>(ps: seq<Party>, key: Party -> K)
    ensures forall k :: k in Index(ps, key) ==> LastWith(ps, key, k, Index(ps, key)[k])
  {
    if |ps| > 0 {
      var init := ps[..|ps| - 1];
      var last := ps[|ps| - 1];
      var m := Index(init, key);
      var r := Index(ps, key);
      IndexLastWins(init, key);
      forall k | k in r ensures LastWith(ps, key, k, r[k]) {
        if k == key(last) {
          assert ps[|ps| - 1] == r[k];
        } else {
          var i :| 0 <= i < |init| && init[i] == m[k] && key(m[k]) == k &&
            forall j :: i < j < |init| ==> key(init[j]) != k;
          assert ps[i] == r[k];
          forall j | i < j < |ps| ensures key(ps[j]) != k {
            if j < |init| {
              assert ps[j] == init[j];
            }
          }
        }
      }
    }
  }

  /** `Ballot.load()` applied to the contents of `ballot.json`. */
  function Load(file: seq<Party>): (r: Registry)
    ensures r.parties == file
    ensures IndexesLastWins(file, IdOf, r.byId)
    ensures IndexesLastWins(file, NameOf, r.byName)
    ensures IndexesLastWins(file, AbrvOf, r.byAbrv)
  {
    IndexKeys(file, IdOf);
    IndexKeys(file, NameOf);
    IndexKeys(file, AbrvOf);
    IndexLastWins(file, IdOf);
    IndexLastWins(file, NameOf);
    IndexLastWins(file, AbrvOf);
    Registry(file, Index(file, IdOf), Index(file, NameOf), Index(file, AbrvOf))
  }

  /** Only `load` ever fills the cache. */
  ghost predicate WellFormed(c: Cache) {
    c.Loaded? ==> c.registry == Load(c.registry.parties)
  }

  /** `if not hasattr(Ballot, "parties"): Ballot.load()`: read the file only when nothing is loaded. */
  function EnsureLoaded(c: Cache, file: seq<Party>): (r: Cache)
    requires WellFormed(c)
    ensures WellFormed(r) && r.Loaded?
    ensures c.Loaded? ==> r == c
    ensures c.Unloaded? ==> r.registry.parties == file
  {
    if c.Loaded? then c else Loaded(Load(file))
  }

  /** The registry is loaded at most once: a second use ignores the file entirely. */
  lemma LoadedOnce(c: Cache, file1: seq<Party>, file2: seq<Party>)
    requires WellFormed(c)
    ensures EnsureLoaded(EnsureLoaded(c, file1), file2) == EnsureLoaded(c, file1)
  {
  }

  /** `get_parties()`: the loaded list, in file order. */
  function GetParties(c: Cache, file: seq<Party>): (r: (Cache, seq<Party>))
    requires WellFormed(c)
    ensures WellFormed(r.0) && r.0.Loaded?
    ensures c.Loaded? ==> r == (c, c.registry.parties)
    ensures c.Unloaded? ==> r.1 == file
  {
    var c' := EnsureLoaded(c, file);
    (c', c'.registry.parties)
  }

  /** One branch of `get_party`: `assert key in index, message; return index[key]`. */
  function Lookup<K>(m: map<K, Party>, k: K, message: string): Result<Option<Party>, string>
  {
    if k in m then Ok(Some(m[k])) else Err(message)
  }

  /** `get_party(id, name, abrv)`: the first criterion that is not `None` decides;
      an unknown key fails the assertion with that criterion's message. */
  function GetParty(c: Cache, file: seq<Party>, id: Option<int>, name: Option<string>, abrv: Option<string>)
    : (r: (Cache, Result<Option<Party>, string>))
    requires WellFormed(c)
    ensures r.0 == EnsureLoaded(c, file)
    ensures var ps := r.0.registry.parties;
      && (id.Some? ==>
            && (r.1.Ok? <==> HasKey(ps, IdOf, id.value))
            && (r.1.Ok? ==> r.1.value.Some? && LastWith(ps, IdOf, id.value, r.1.value.value))
            && (r.1.Err? ==> r.1.error == InvalidId))
      && (id.None? && name.Some? ==>
            && (r.1.Ok? <==> HasKey(ps, NameOf, name.value))
            && (r.1.Ok? ==> r.1.value.Some? && LastWith(ps, NameOf, name.value, r.1.value.value))
            && (r.1.Err? ==> r.1.error == InvalidName))
      && (id.None? && name.None? && abrv.Some? ==>
            && (r.1.Ok? <==> HasKey(ps, AbrvOf, abrv.value))
            && (r.1.Ok? ==> r.1.value.Some? && LastWith(ps, AbrvOf, abrv.value, r.1.value.value))
            && (r.1.Err? ==> r.1.error == InvalidAbrv))
      && (id.None? && name.None? && abrv.None? ==> r.1 == Ok(None))
  {
    var c' := EnsureLoaded(c, file);
    var reg := c'.registry;
    var result :=
      if id.Some? then Lookup(reg.byId, id.value, InvalidId)
      else if name.Some? then Lookup(reg.byName, name.value, InvalidName)
      else if abrv.Some? then Lookup(reg.byAbrv, abrv.value, InvalidAbrv)
      else Ok(None);
    (c', result)
  }

  /** Precedence: an id, even a falsy one such as 0, makes name and abbreviation irrelevant;
      a name likewise makes the abbreviation irrelevant. */
  lemma GetPartyPrecedence(c: Cache, file: seq<Party>, id: Option<int>, name: Option<string>, abrv: Option<string>)
    requires WellFormed(c)
    ensures id.Some? ==> GetParty(c, file, id, name, abrv) == GetParty(c, file, id, None, None)
    ensures id.None? && name.Some? ==> GetParty(c, file, id, name, abrv) == GetParty(c, file, None, name, None)
  {
  }

  /** The party an index holds for a key is in the list and carries that key. */
  lemma LastWithIsMember<K(!new)>(ps: seq<Party>, key: Party -> K, k: K, p: Party)
    requires LastWith(ps, key, k, p)
    ensures p in ps && key(p) == k
  {
  }

  /** A successful lookup returns a party of the list whose looked-up field equals the key. */
  lemma LookupMatchesKey(c: Cache, file: seq<Party>, id: Option<int>, name: Option<string>, abrv: Option<string>)
    requires WellFormed(c)
    ensures var r := GetParty(c, file, id, name, abrv);
      r.1.Ok? && r.1.value.Some? ==>
        var p := r.1.value.value;
        && p in r.0.registry.parties
        && (id.Some? ==> p.id == id.value)
        && (id.None? && name.Some? ==> p.name == name.value)
        && (id.None? && name.None? ==> abrv.Some? && p.abrv == abrv.value)
  {
    var r := GetParty(c, file, id, name, abrv);
    if r.1.Ok? && r.1.value.Some? {
      var ps := r.0.registry.parties;
      var p := r.1.value.value;
      if id.Some? {
        LastWithIsMember(ps, IdOf, id.value, p);
      } else if name.Some? {
        LastWithIsMember(ps, NameOf, name.value, p);
      } else {
        LastWithIsMember(ps, AbrvOf, abrv.value, p);
      }
    }
  }

  /** Every party of the list can be looked up by its own id. */
  lemma {:induction false} ListedIdsResolve(c: Cache, file: seq<Party>, i: nat)
    requires WellFormed(c)
    requires i < |EnsureLoaded(c, file).registry.parties|
    ensures GetParty(c, file, Some(EnsureLoaded(c, file).registry.parties[i].id), None, None).1.Ok?
  {
    var ps := EnsureLoaded(c, file).registry.parties;
    assert HasKey(ps, IdOf, ps[i].id) by {
      assert IdOf(ps[i]) == ps[i].id;
    }
  }
}

=== FILE: base64.dfy ===
/**
  Base64 with the standard alphabet and `=` padding, as section 4 of RFC 4648
  defines it and as Python's `base64.b64encode` produces it. The kiosk shows the
  base64 text of the vote digest in its QR code; `Decode` is the reading side.
*/
module Base64 {
  import opened Wrappers

  type Byte = b: int | 0 <= b < 256
  type Sextet = i: int | 0 <= i < 64

  /** The alphabet: A-Z, a-z, 0-9, '+', '/'. */
  function CharOf(i: Sextet): (c: char)
    ensures IsAlphabet(c) && IndexOf(c) == i
  {
    if i < 26 then ('A' as int + i) as char
    else if i < 52 then ('a' as int + (i - 26)) as char
    else if i < 62 then ('0' as int + (i - 52)) as char
    else if i == 62 then '+'
    else '/'
  }

  predicate IsAlphabet(c: char) {
    ('A' <= c <= 'Z') || ('a' <= c <= 'z') || ('0' <= c <= '9') || c == '+' || c == '/'
  }

  function IndexOf(c: char): Sextet
    requires IsAlphabet(c)
  {
    if 'A' <= c <= 'Z' then c as int - 'A' as int
    else if 'a' <= c <= 'z' then c as int - 'a' as int + 26
    else if '0' <= c <= '9' then c as int - '0' as int + 52
    else if c == '+' then 62
    else 63
  }

  /** Three bytes, most significant bits first, as four sextets. */
  function EncodeBlock(b0: Byte, b1: Byte, b2: Byte): string {
    [CharOf(b0 / 4), CharOf((b0 % 4) * 16 + b1 / 16), CharOf((b1 % 16) * 4 + b2 / 64), CharOf(b2 % 64)]
  }

  function Encode(bytes: seq<Byte>): (s: string)
    ensures |s| == (|bytes| + 2) / 3 * 4
  {
    if |bytes| == 0 then ""
    else if |bytes| == 1 then [CharOf(bytes[0] / 4), CharOf((bytes[0] % 4) * 16), '=', '=']
    else if |bytes| == 2 then
      [CharOf(bytes[0] / 4), CharOf((bytes[0] % 4) * 16 + bytes[1] / 16), CharOf((bytes[1] % 16) * 4), '=']
    else EncodeBlock(bytes[0], bytes[1], bytes[2]) + Encode(bytes[3..])
  }

  /** Four alphabet characters back to three bytes. */
  function DecodeBlock(c0: Sextet, c1: Sextet, c2: Sextet, c3: Sextet): seq<Byte> {
    [c0 * 4 + c1 / 16, (c1 % 16) * 16 + c2 / 4, (c2 % 4) * 64 + c3]
  }

  /** Decoding; `None` for text that is not padded base64 of the standard alphabet. */
  function Decode(s: string): Option<seq<Byte>>
    decreases |s|
  {
    if |s| == 0 then Some([])
    else if |s| % 4 != 0 then None
    else if !(IsAlphabet(s[0]) && IsAlphabet(s[1])) then None
    else
      var c0 := IndexOf(s[0]);
      var c1 := IndexOf(s[1]);
      if |s| == 4 && s[2] == '=' && s[3] == '=' then Some([c0 * 4 + c1 / 16])
      else if !IsAlphabet(s[2]) then None
      else
        var c2 := IndexOf(s[2]);
        if |s| == 4 && s[3] == '=' then Some([c0 * 4 + c1 / 16, (c1 % 16) * 16 + c2 / 4])
        else if !IsAlphabet(s[3]) then None
        else match Decode(s[4..])
          case None => None
          case Some(rest) => Some(DecodeBlock(c0, c1, c2, IndexOf(s[3])) + rest)
  }

  lemma Split16(hi: int, lo: int)
    requires 0 <= lo < 16 && hi >= 0
    ensures (hi * 16 + lo) / 16 == hi && (hi * 16 + lo) % 16 == lo
  {
  }

  lemma Split4(hi: int, lo: int)
    requires 0 <= lo < 4 && hi >= 0
    ensures (hi * 4 + lo) / 4 == hi && (hi * 4 + lo) % 4 == lo
  {
  }

  /** The first byte is rebuilt from the first sextet and the top of the second. */
  lemma FirstByte(b0: Byte, b1: Byte)
    ensures (b0 / 4) * 4 + ((b0 % 4) * 16 + b1 / 16) / 16 == b0
  {
    Split16(b0 % 4, b1 / 16);
  }

  /** The second byte is rebuilt from the bottom of the second sextet and the top of the third. */
  lemma SecondByte(b0: Byte, b1: Byte, b2: Byte)
    ensures (((b0 % 4) * 16 + b1 / 16) % 16) * 16 + ((b1 % 16) * 4 + b2 / 64) / 4 == b1
  {
    Split16(b0 % 4, b1 / 16);
    Split4(b1 % 16, b2 / 64);
  }

  /** The third byte is rebuilt from the bottom of the third sextet and the fourth. */
  lemma ThirdByte(b1: Byte, b2: Byte)
    ensures (((b1 % 16) * 4 + b2 / 64) % 4) * 64 + b2 % 64 == b2
  {
    Split4(b1 % 16, b2 / 64);
  }

  /** Encoding then decoding one block gives the block back. */
  lemma BlockRoundTrip(b0: Byte, b1: Byte, b2: Byte)
    ensures var e := EncodeBlock(b0, b1, b2);
      DecodeBlock(IndexOf(e[0]), IndexOf(e[1]), IndexOf(e[2]), IndexOf(e[3])) == [b0, b1, b2]
  {
    var e := EncodeBlock(b0, b1, b2);
    var c0, c1, c2, c3 := b0 / 4, (b0 % 4) * 16 + b1 / 16, (b1 % 16) * 4 + b2 / 64, b2 % 64;
    assert IndexOf(e[0]) == c0 && IndexOf(e[1]) == c1 && IndexOf(e[2]) == c2 && IndexOf(e[3]) == c3;
    FirstByte(b0, b1);
    SecondByte(b0, b1, b2);
    ThirdByte(b1, b2);
  }

  /** The one-byte tail, padded with "==". */
  lemma TailOfOneRoundTrip(b0: Byte)
    ensures Decode(Encode([b0])) == Some([b0])
  {
    var s := Encode([b0]);
    assert IndexOf(s[0]) == b0 / 4 && IndexOf(s[1]) == (b0 % 4) * 16;
    FirstByte(b0, 0);
  }

  /** The two-byte tail, padded with "=". */
  lemma TailOfTwoRoundTrip(b0: Byte, b1: Byte)
    ensures Decode(Encode([b0, b1])) == Some([b0, b1])
  {
    var s := Encode([b0, b1]);
    assert s[2] != '=' && s[3] == '=';
    assert IndexOf(s[0]) == b0 / 4;
    assert IndexOf(s[1]) == (b0 % 4) * 16 + b1 / 16;
    assert IndexOf(s[2]) == (b1 % 16) * 4;
    FirstByte(b0, b1);
    SecondByte(b0, b1, 0);
  }

  /** Decoding a text that starts with four alphabet characters: that block, then the rest. */
  lemma DecodeLeadingBlock(s: string)
    requires |s| >= 4 && |s| % 4 == 0
    requires IsAlphabet(s[0]) && IsAlphabet(s[1]) && IsAlphabet(s[2]) && IsAlphabet(s[3])
    ensures Decode(s) ==
      match Decode(s[4..])
      case None => None
      case Some(rest) => Some(DecodeBlock(IndexOf(s[0]), IndexOf(s[1]), IndexOf(s[2]), IndexOf(s[3])) + rest)
  {
  }

  /** A full block in front of text that decodes to `rest` decodes to the block's bytes then `rest`. */
  lemma BlockThenRest(b0: Byte, b1: Byte, b2: Byte, tail: string, rest: seq<Byte>)
    requires |tail| % 4 == 0
    requires Decode(tail) == Some(rest)
    ensures Decode(EncodeBlock(b0, b1, b2) + tail) == Some([b0, b1, b2] + rest)
  {
    var e := EncodeBlock(b0, b1, b2);
    var s := e + tail;
    assert s[0] == e[0] && s[1] == e[1] && s[2] == e[2] && s[3] == e[3];
    assert s[4..] == tail;
    DecodeLeadingBlock(s);
    BlockRoundTrip(b0, b1, b2);
  }

  /** A string of at least three bytes is its first three bytes followed by the rest. */
  lemma FirstThree<T>(s: seq<T>)
    requires |s| >= 3
    ensures s == [s[0], s[1], s[2]] + s[3..]
  {
  }

  /** Decoding inverts encoding for every byte string. */
  lemma {:induction false} DecodeEncode(bytes: seq<Byte>)
    ensures Decode(Encode(bytes)) == Some(bytes)
  {
    if |bytes| == 1 {
      TailOfOneRoundTrip(bytes[0]);
      assert bytes == [bytes[0]];
    } else if |bytes| == 2 {
      TailOfTwoRoundTrip(bytes[0], bytes[1]);
      assert bytes == [bytes[0], bytes[1]];
    } else if |bytes| >= 3 {
      DecodeEncode(bytes[3..]);
      assert Encode(bytes) == EncodeBlock(bytes[0], bytes[1], bytes[2]) + Encode(bytes[3..]);
      BlockThenRest(bytes[0], bytes[1], bytes[2], Encode(bytes[3..]), bytes[3..]);
      FirstThree(bytes);
    }
  }

  /** Encoding is injective: distinct byte strings never share a base64 text. */
  lemma EncodeInjective(a: seq<Byte>, b: seq<Byte>)
    requires Encode(a) == Encode(b)
    ensures a == b
  {
    DecodeEncode(a);
    DecodeEncode(b);
  }
}

=== FILE: chaincode_args.dfy ===
/**
  `printArgs(func, args)`: the invocation object `{"function": func, "Args": args}`
  the voting machine hands to the peer command line, as `JSON.stringify` turns it
  into JSON. The object structure is modelled, not the text: keys in order and
  values as a JSON tree.
*/
module ChaincodeArgs {
  import opened Wrappers

  /** The JavaScript values `printArgs` can be called with. Numbers are integers;
      `Func` is any function value. */
  datatype JsValue =
    | Undefined
    | Null
    | Bool(b: bool)
    | Number(n: int)
    | Str(s: string)
    | Func
    | Array(elems: seq<JsValue>)
    | Object(fields: seq<Field>)

  /** An own enumerable property, in enumeration order. */
  datatype Field = Field(key: string, value: JsValue)

  /** A JSON value; objects keep their members in text order. */
  datatype Json =
    | JNull
    | JBool(b: bool)
    | JNumber(n: int)
    | JString(s: string)
    | JArray(elems: seq<Json>)
    | JObject(members: seq<Member>)

  datatype Member = Member(key: string, value: Json)

  /** JavaScript truthiness: `undefined`, `null`, `false`, `0` and `""` are falsy. */
  predicate Truthy(v: JsValue) {
    match v
    case Undefined => false
    case Null => false
    case Bool(b) => b
    case Number(n) => n != 0
    case Str(s) => s != ""
    case _ => true
  }

  /** `JSON.stringify`: `undefined` and functions have no JSON form; as a property
      they are dropped, as an array element they become `null`. */
  function Stringify(v: JsValue): (r: Option<Json>)
    ensures r.None? <==> v.Undefined? || v.Func?
  {
    match v
    case Undefined => None
    case Func => None
    case Null => Some(JNull)
    case Bool(b) => Some(JBool(b))
    case Number(n) => Some(JNumber(n))
    case Str(s) => Some(JString(s))
    case Array(elems) =>
      Some(JArray(seq(|elems|, i requires 0 <= i < |elems| => OrNull(Stringify(elems[i])))))
    case Object(fields) =>
      Some(JObject(DropMissing(seq(|fields|, i requires 0 <= i < |fields| =>
        (fields[i].key, Stringify(fields[i].value))))))
  }

  /** An array element without a JSON form is written as `null`. */
  function OrNull(o: Option<Json>): Json {
    match o
    case None => JNull
    case Some(j) => j
  }

  /** The properties that have a JSON form, in order. */
  function DropMissing(props: seq<(string, Option<Json>)>): (r: seq<Member>)
    ensures |r| <= |props|
    ensures (forall i :: 0 <= i < |props| ==> props[i].1.Some?) ==>
      |r| == |props| && forall i :: 0 <= i < |r| ==> r[i] == Member(props[i].0, props[i].1.value)
  {
    if |props| == 0 then []
    else
      var rest := DropMissing(props[1..]);
      match props[0].1
      case None => rest
      case Some(j) => [Member(props[0].0, j)] + rest
  }

  /** The keys of a JSON object, in order. */
  function Keys(members: seq<Member>): (ks: seq<string>)
    ensures |ks| == |members|
  {
    if |members| == 0 then [] else [members[0].key] + Keys(members[1..])
  }

  /** The value under `key`; the last occurrence wins, as in `JSON.parse`. */
  function Lookup(members: seq<Member>, key: string): Option<Json> {
    if |members| == 0 then None
    else
      match Lookup(members[1..], key)
      case Some(j) => Some(j)
      case None => if members[0].key == key then Some(members[0].value) else None
  }

  const FunctionKey: string := "function"
  const ArgsKey: string := "Args"

  /** The object literal `printArgs` builds. */
  function ArgsObject(func: JsValue, args: JsValue): JsValue {
    if !args.Array? then
      if Truthy(func) then Object([Field(FunctionKey, func), Field(ArgsKey, Array([]))])
      else Object([Field(ArgsKey, Array([]))])
    else Object([Field(FunctionKey, func), Field(ArgsKey, args)])
  }

  /** `printArgs(func, args)`, as the JSON object its text denotes. */
  function PrintArgs(func: JsValue, args: JsValue): (r: seq<Member>)
    ensures Keys(r) == [FunctionKey, ArgsKey] || Keys(r) == [ArgsKey]
    ensures !args.Array? ==> Lookup(r, ArgsKey) == Some(JArray([]))
    ensures !args.Array? ==> (FunctionKey in Keys(r) <==> Truthy(func) && !func.Func?)
    ensures args.Array? ==> Lookup(r, ArgsKey) == Stringify(args)
    ensures args.Array? ==> (FunctionKey in Keys(r) <==> !func.Undefined? && !func.Func?)
    ensures FunctionKey in Keys(r) ==> Lookup(r, FunctionKey) == Stringify(func)
  {
    var o := ArgsObject(func, args);
    StringifyObject(o);
    EmptyArray();
    var r := Stringify(o).value.members;
    if |r| == 1 then
      LookupSingle(r, ArgsKey);
      LookupSingle(r, FunctionKey);
      r
    else
      LookupPair(r, ArgsKey);
      LookupPair(r, FunctionKey);
      r
  }

  /** `[]` stringifies to the empty JSON array. */
  lemma EmptyArray()
    ensures Stringify(Array([])) == Some(JArray([]))
  {
    var v := Array([]);
    assert |Stringify(v).value.elems| == 0;
  }

  lemma LookupSingle(ms: seq<Member>, key: string)
    requires |ms| == 1
    ensures Keys(ms) == [ms[0].key]
    ensures Lookup(ms, key) == if ms[0].key == key then Some(ms[0].value) else None
  {
    assert ms[1..] == [];
  }

  lemma LookupPair(ms: seq<Member>, key: string)
    requires |ms| == 2
    ensures Keys(ms) == [ms[0].key, ms[1].key]
    ensures Lookup(ms, key) ==
      if ms[1].key == key then Some(ms[1].value)
      else if ms[0].key == key then Some(ms[0].value)
      else None
  {
    LookupSingle(ms[1..], key);
  }

  /** Unfolds `Stringify` on an object literal of at most two fields. */
  lemma StringifyObject(o: JsValue)
    requires o.Object? && |o.fields| <= 2
    ensures Stringify(o).Some? && Stringify(o).value.JObject?
    ensures |o.fields| == 1 ==>
      var f := o.fields[0];
      Stringify(o).value.members == if Stringify(f.value).None? then [] else [Member(f.key, Stringify(f.value).value)]
    ensures |o.fields| == 2 ==>
      var f := o.fields[0];
      var g := o.fields[1];
      Stringify(o).value.members ==
        (if Stringify(f.value).None? then [] else [Member(f.key, Stringify(f.value).value)]) +
        (if Stringify(g.value).None? then [] else [Member(g.key, Stringify(g.value).value)])
  {
    var fs := o.fields;
    var props := seq(|fs|, i requires 0 <= i < |fs| => (fs[i].key, Stringify(fs[i].value)));
    assert Stringify(o).value.members == DropMissing(props);
    if |fs| >= 1 {
      assert DropMissing(props) ==
        (if props[0].1.None? then [] else [Member(props[0].0, props[0].1.value)]) + DropMissing(props[1..]);
    }
    if |fs| == 2 {
      assert props[1..][1..] == [];
      assert DropMissing(props[1..]) ==
        (if props[1].1.None? then [] else [Member(props[1].0, props[1].1.value)]) + DropMissing(props[1..][1..]);
    }
  }

  /** A JSON value as the JavaScript value `JSON.parse` would build from it. */
  function ToJs(j: Json): (v: JsValue)
    ensures Stringify(v).Some?
  {
    match j
    case JNull => Null
    case JBool(b) => Bool(b)
    case JNumber(n) => Number(n)
    case JString(s) => Str(s)
    case JArray(elems) => Array(seq(|elems|, i requires 0 <= i < |elems| => ToJs(elems[i])))
    case JObject(members) =>
      Object(seq(|members|, i requires 0 <= i < |members| => Field(members[i].key, ToJs(members[i].value))))
  }

  /** Stringifying a value built from JSON gives that JSON back: values with a
      JSON form survive `printArgs` unchanged. */
  lemma {:induction false} StringifyToJs(j: Json)
    ensures Stringify(ToJs(j)) == Some(j)
  {
    match j
    case JArray(elems) =>
      var vs := ToJs(j).elems;
      forall i | 0 <= i < |elems| ensures OrNull(Stringify(vs[i])) == elems[i] {
        StringifyToJs(elems[i]);
      }
      assert Stringify(ToJs(j)).value.elems == elems;
    case JObject(members) =>
      var fs := ToJs(j).fields;
      forall i | 0 <= i < |members| ensures Stringify(fs[i].value) == Some(members[i].value) {
        StringifyToJs(members[i].value);
      }
      assert Stringify(ToJs(j)).value.members == members;
    case _ =>
  }

  /** An array argument built from JSON reaches the peer exactly as given. */
  lemma ArgsPassThrough(func: JsValue, args: seq<Json>)
    ensures Lookup(PrintArgs(func, ToJs(JArray(args))), ArgsKey) == Some(JArray(args))
  {
    StringifyToJs(JArray(args));
  }
}

=== FILE: homomorphic.dfy ===
/**
  The abstract view of the BFV ciphertexts the vote collector stores: a
  ciphertext is identified with the vector of batching slots it decrypts to, and
  the evaluator's homomorphic addition is slot-wise addition modulo the plain
  modulus. The encryption parameters are those the chaincode builds: polynomial
  modulus degree 2^12 and a 32-bit batching prime as plain modulus.
*/
module Homomorphic {
  import opened Wrappers
  import opened Arith

  /** `polyModulusDegree = 2**12`; with batching there is one slot per coefficient. */
  const PolyModulusDegree: nat := 4096
  const SlotCount: nat := PolyModulusDegree

  /** What `PlainModulus.Batching(4096, 32)` returns: a 32-bit modulus congruent to 1
      modulo twice the degree (its primality is not modelled). */
  type PlainModulus = t: nat | 0x8000_0000 <= t < 0x1_0000_0000 && t % 8192 == 1 witness 0x8000_0001

  /** A base64 string handed to the chaincode as a ciphertext: the empty string, a
      string SEAL loads as a ciphertext with the given slots, or any other string. */
  datatype Blob = EmptyString | Ciphertext(slots: seq<nat>) | Unloadable

  /** `CipherText.load`: succeeds only on a ciphertext of the context's shape, and
      gives back the slots that ciphertext was saved with. */
  function Load(b: Blob): (r: Option<seq<nat>>)
    ensures r.Some? ==> |r.value| == SlotCount
    ensures r.Some? <==> b.Ciphertext? && |b.slots| == SlotCount
    ensures r.Some? ==> r.value == b.slots
  {
    if b.Ciphertext? && |b.slots| == SlotCount then Some(b.slots) else None
  }

  /** `evaluator.add`: what the sum decrypts to. */
  function Add(t: PlainModulus, a: seq<nat>, b: seq<nat>): (r: seq<nat>)
    requires |a| == |b|
    ensures |r| == |a|
  {
    seq(|a|, i requires 0 <= i < |a| => (a[i] + b[i]) % t)
  }

  /** The slots of a ballot for `party`: 1 in the party's slot, 0 elsewhere. */
  function OneHot(party: nat): (r: seq<nat>)
    ensures |r| == SlotCount
  {
    seq(SlotCount, i requires 0 <= i < SlotCount => if i == party then 1 else 0)
  }

  /** An encrypted ballot for `party`. */
  predicate VoteFor(b: Blob, party: nat) {
    party < SlotCount && b == Ciphertext(OneHot(party))
  }

  /** How many of `parties` are `i`. */
  function Count(parties: seq<nat>, i: nat): (n: nat)
    ensures n <= |parties|
  {
    if |parties| == 0 then 0
    else Count(parties[..|parties| - 1], i) + (if parties[|parties| - 1] == i then 1 else 0)
  }

  /** The slots a correct tally of `parties` decrypts to. */
  function CountVector(t: PlainModulus, parties: seq<nat>): (r: seq<nat>)
    ensures |r| == SlotCount
  {
    seq(SlotCount, i requires 0 <= i < SlotCount => Count(parties, i) % t)
  }

  /** The count of a candidate is its multiplicity, so it does not depend on the order of the votes. */
  lemma {:induction false} CountIsMultiplicity(parties: seq<nat>, i: nat)
    ensures Count(parties, i) == multiset(parties)[i]
  {
    if |parties| > 0 {
      var init := parties[..|parties| - 1];
      assert parties == init + [parties[|parties| - 1]];
      CountIsMultiplicity(init, i);
    }
  }

  /** Any two interleavings of the same ballots give the same tally. */
  lemma CountVectorOrderIndependent(t: PlainModulus, p: seq<nat>, q: seq<nat>)
    requires multiset(p) == multiset(q)
    ensures CountVector(t, p) == CountVector(t, q)
  {
    forall i | 0 <= i < SlotCount ensures CountVector(t, p)[i] == CountVector(t, q)[i] {
      CountIsMultiplicity(p, i);
      CountIsMultiplicity(q, i);
    }
  }

  /** The remainder is determined by any quotient-remainder decomposition. */
  lemma ModUnique(n: int, t: int, q: int, r: int)
    requires t > 0 && 0 <= r < t && n == q * t + r
    ensures n % t == r
  {
    var q' := n / t;
    var r' := n % t;
    assert n == q' * t + r';
    MulDistributes(q, q', t);
    if q > q' {
      MulMono(1, q - q', t);
    } else if q < q' {
      MulDistributes(q', q, t);
      MulMono(1, q' - q, t);
    }
  }

  lemma ModAddLeft(t: PlainModulus, a: nat, b: nat)
    ensures (a % t + b) % t == (a + b) % t
  {
    var x := a % t + b;
    var q1 := a / t;
    var q2 := x / t;
    assert a == q1 * t + a % t;
    assert x == q2 * t + x % t;
    assert a + b == (q1 + q2) * t + x % t;
    ModUnique(a + b, t, q1 + q2, x % t);
  }

  /** A non-empty sequence is its prefix followed by its last element. */
  lemma PrefixAndLast<T>(s: seq<T>)
    requires |s| > 0
    ensures s[..|s| - 1] + [s[|s| - 1]] == s
  {
  }

  /** Adding the encryption of a ballot for `party` to a correct tally of `parties`
      gives a correct tally of `parties + [party]`. */
  lemma {:induction false} AddVoteToTally(t: PlainModulus, parties: seq<nat>, vote: Blob, party: nat)
    requires VoteFor(vote, party)
    ensures Add(t, CountVector(t, parties), vote.slots) == CountVector(t, parties + [party])
  {
    var ps := parties + [party];
    assert ps[..|ps| - 1] == parties;
    forall i | 0 <= i < SlotCount
      ensures Add(t, CountVector(t, parties), vote.slots)[i] == CountVector(t, ps)[i]
    {
      ModAddLeft(t, Count(parties, i), vote.slots[i]);
    }
  }

  /** A single ballot is already a correct tally of itself. */
  lemma {:induction false} SingleVoteIsTally(t: PlainModulus, vote: Blob, party: nat)
    requires VoteFor(vote, party)
    ensures vote.slots == CountVector(t, [party])
  {
    var ps: seq<nat> := [party];
    assert ps[..0] == [];
    forall i | 0 <= i < SlotCount ensures vote.slots[i] == CountVector(t, ps)[i] {
      var c := if party == i then 1 else 0;
      assert Count(ps, i) == Count(ps[..0], i) + c;
      ModUnique(c, t, 0, c);
    }
  }
}

=== FILE: kiosk.dfy ===
/**
  The voting kiosk's controller: four pages shown one at a time, the vote
  encoding triggered by a party button, and the scan loop that waits for the
  voter's phone to show a signed credential. Rendering and the camera are not
  modelled; the voting machine's checks are fields of `Machine`, and what its
  `encode_vote` returns arrives with the party button's event. Nothing is assumed
  about either.
*/
module Kiosk {
  import opened Wrappers
  import Base64
  import Ballot

  type Bytes = seq<Base64.Byte>

  datatype Page = VotePage | BallotQRPage | ScanQRPage | SucessPage

  /** What `encode_vote(vote_id)` of the voting machine returns. */
  datatype Encoding = Encoding(encryptedVote: Bytes, machineSignature: Bytes, digest: Bytes)

  /** A camera frame; only the decoder looks inside it. */
  datatype Frame = Frame(image: Bytes)

  /** What the decoder reads off one frame: a voter signature and a voter
      certificate, either of which may be missing. */
  datatype Decoded = Decoded(signature: Option<Bytes>, certificate: Option<Bytes>)

  /** The voting machine's static checks the scan loop calls, each a function of
      its arguments. `encode_vote` is a method of the stateful machine and may
      return a fresh encoding on every call, so its result is part of the event
      that triggers it instead. */
  datatype Machine = Machine(
    decoder: Frame -> Decoded,
    isVoteValid: (Bytes, Bytes, Bytes) -> bool)

  /** The controller attributes `encode_vote` sets: the encrypted vote, the
      machine's signature, and the text shown in the ballot's QR code. */
  datatype Session = Session(encryptedVote: Bytes, machineSignature: Bytes, qrPayload: string)

  /** One call of the voting machine's `vote`. */
  datatype Submission = Submission(
    encryptedVote: Bytes, machineSignature: Bytes, voterSignature: Bytes, voterCertificate: Bytes)

  /** The kiosk: the party list its buttons were built from, the page on top,
      the last encoded vote, and every vote sent so far. */
  datatype Kiosk = Kiosk(parties: seq<Ballot.Party>, page: Page, session: Option<Session>, sent: seq<Submission>)

  /** What the voter (or the camera) does. `PressParty` carries what the
      machine's `encode_vote` returns for this press, if it is called.
      `PressScanned` is the "AM SCANAT" button followed by the frames the scan loop reads before control returns;
      `CameraFrames` is further frames read by the same loop. */
  datatype Event =
    | PressParty(id: int, encoding: Encoding)
    | PressSkip
    | PressScanned(frames: seq<Frame>)
    | CameraFrames(frames: seq<Frame>)
    | PressReset

  /** The kiosk as `MainApp` starts it: the vote page, nothing encoded, nothing sent. */
  function Initial(parties: seq<Ballot.Party>): (k: Kiosk)
    ensures k.page == VotePage && k.sent == [] && k.parties == parties
  {
    Kiosk(parties, VotePage, None, [])
  }

  /** The pages a single event can lead to. */
  function Successors(p: Page): set<Page> {
    match p
    case VotePage => {VotePage, BallotQRPage}
    case BallotQRPage => {BallotQRPage, ScanQRPage, SucessPage}
    case ScanQRPage => {ScanQRPage, SucessPage}
    case SucessPage => {SucessPage, VotePage}
  }

  /** Every page past the vote page is only shown once a vote has been encoded. */
  predicate Consistent(k: Kiosk) {
    k.page != VotePage ==> k.session.Some?
  }

  /** A frame the scan loop accepts: both credentials were decoded and the
      machine judges them valid for the kiosk's own encrypted vote. */
  predicate Acceptable(m: Machine, encryptedVote: Bytes, f: Frame) {
    var d := m.decoder(f);
    d.signature.Some? && d.certificate.Some? && m.isVoteValid(encryptedVote, d.signature.value, d.certificate.value)
  }

  /** The index of the first acceptable frame, if any. */
  function FirstAccepted(m: Machine, encryptedVote: Bytes, frames: seq<Frame>): (r: Option<nat>)
    ensures r.Some? ==>
      && r.value < |frames|
      && Acceptable(m, encryptedVote, frames[r.value])
      && forall j :: 0 <= j < r.value ==> !Acceptable(m, encryptedVote, frames[j])
    ensures r.None? ==> forall j :: 0 <= j < |frames| ==> !Acceptable(m, encryptedVote, frames[j])
  {
    if |frames| == 0 then None
    else if Acceptable(m, encryptedVote, frames[0]) then Some(0)
    else
      match FirstAccepted(m, encryptedVote, frames[1..])
      case None => None
      case Some(i) => Some(i + 1)
  }

  /** The `while True` loop of `ScanQRPage.tkraise` over the frames read so far:
      skip a frame with a missing credential, skip one the machine rejects, and
      stop at the first one it accepts. */
  method ScanLoop(m: Machine, encryptedVote: Bytes, frames: seq<Frame>)
    returns (found: bool, index: nat, signature: Bytes, certificate: Bytes)
    ensures found ==>
      && index < |frames|
      && m.decoder(frames[index]) == Decoded(Some(signature), Some(certificate))
      && m.isVoteValid(encryptedVote, signature, certificate)
      && forall j :: 0 <= j < index ==> !Acceptable(m, encryptedVote, frames[j])
    ensures !found ==> forall j :: 0 <= j < |frames| ==> !Acceptable(m, encryptedVote, frames[j])
    ensures found <==> FirstAccepted(m, encryptedVote, frames).Some?
    ensures found ==> index == FirstAccepted(m, encryptedVote, frames).value
  {
    var i := 0;
    while i < |frames|
      invariant 0 <= i <= |frames|
      invariant forall j :: 0 <= j < i ==> !Acceptable(m, encryptedVote, frames[j])
    {
      var d := m.decoder(frames[i]);
      if d.signature.None? || d.certificate.None? {
        i := i + 1;
        continue;
      }
      if !m.isVoteValid(encryptedVote, d.signature.value, d.certificate.value) {
        i := i + 1;
        continue;
      }
      ghost var first := FirstAccepted(m, encryptedVote, frames);
      assert first.Some? && first.value == i;
      return true, i, d.signature.value, d.certificate.value;
    }
    return false, 0, [], [];
  }

  /** The scan loop's outcome on the kiosk: the first acceptable frame sends the
      vote once and shows the success page; otherwise scanning goes on. */
  function Scan(m: Machine, k: Kiosk, frames: seq<Frame>): Kiosk
    requires k.session.Some?
  {
    var s := k.session.value;
    match FirstAccepted(m, s.encryptedVote, frames)
    case None => k.(page := ScanQRPage)
    case Some(i) =>
      var d := m.decoder(frames[i]);
      k.(page := SucessPage,
         sent := k.sent + [Submission(s.encryptedVote, s.machineSignature, d.signature.value, d.certificate.value)])
  }

  /** `encode_vote(vote_id)`: keep the encrypted vote and the machine's signature,
      and put the base64 text of the digest in the QR code. */
  function EncodeVote(e: Encoding): (s: Session)
    ensures s.encryptedVote == e.encryptedVote
    ensures s.machineSignature == e.machineSignature
    ensures Base64.Decode(s.qrPayload) == Some(e.digest)
  {
    Base64.DecodeEncode(e.digest);
    Session(e.encryptedVote, e.machineSignature, Base64.Encode(e.digest))
  }

  /** One event. A party button first looks the party up by id, which fails the
      registry's assertion for an unknown id and then does nothing more. */
  function Step(m: Machine, k: Kiosk, e: Event): Kiosk
    requires Consistent(k)
  {
    match (k.page, e)
    case (VotePage, PressParty(id, encoding)) =>
      if Ballot.GetParty(Ballot.Loaded(Ballot.Load(k.parties)), k.parties, Some(id), None, None).1.Ok?
      then k.(page := BallotQRPage, session := Some(EncodeVote(encoding)))
      else k
    case (BallotQRPage, PressScanned(frames)) => Scan(m, k, frames)
    case (ScanQRPage, CameraFrames(frames)) => Scan(m, k, frames)
    case (SucessPage, PressReset) => k.(page := VotePage)
    case _ => k
  }

  /** The last element of a non-empty sequence. */
  function Last<T>(s: seq<T>): T
    requires |s| > 0
  {
    s[|s| - 1]
  }

  /** The page flow and the send rule of a single event. */
  lemma StepContract(m: Machine, k: Kiosk, e: Event)
    requires Consistent(k)
    ensures var r := Step(m, k, e);
      && Consistent(r)
      && r.parties == k.parties
      && r.page in Successors(k.page)
      && (|r.sent| != |k.sent| <==> k.page != SucessPage && r.page == SucessPage)
      && (r.sent == k.sent || r.sent == k.sent + [Last(r.sent)])
      && (|r.sent| != |k.sent| ==>
            var s := Last(r.sent);
            && s.encryptedVote == k.session.value.encryptedVote
            && s.machineSignature == k.session.value.machineSignature
            && m.isVoteValid(s.encryptedVote, s.voterSignature, s.voterCertificate))
      && (r.session != k.session ==> k.page == VotePage && r.page == BallotQRPage)
  {
  }

  /** A party button leads to the ballot page exactly when the id is in the list,
      and the QR code then carries the digest of that vote. */
  lemma PressPartyContract(m: Machine, k: Kiosk, id: int, e: Encoding)
    requires k.page == VotePage
    ensures var r := Step(m, k, PressParty(id, e));
      && (r.page == BallotQRPage <==> Ballot.HasKey(k.parties, Ballot.IdOf, id))
      && (r.page != BallotQRPage ==> r == k)
      && (r.page == BallotQRPage ==>
            && r.sent == k.sent
            && r.session.value.encryptedVote == e.encryptedVote
            && r.session.value.machineSignature == e.machineSignature
            && Base64.Decode(r.session.value.qrPayload) == Some(e.digest))
  {
  }

  /** Every button on the vote page is built from a listed party, so pressing it
      always reaches the ballot page. */
  lemma {:induction false} ListedPartyProceeds(m: Machine, k: Kiosk, i: nat, e: Encoding)
    requires k.page == VotePage && i < |k.parties|
    ensures Step(m, k, PressParty(k.parties[i].id, e)).page == BallotQRPage
  {
    Ballot.ListedIdsResolve(Ballot.Loaded(Ballot.Load(k.parties)), k.parties, i);
  }

  /** The skip button only prints: it neither sends nor changes page. */
  lemma SkipDoesNothing(m: Machine, k: Kiosk)
    requires Consistent(k)
    ensures Step(m, k, PressSkip) == k
  {
  }

  /** Reset, a button of the success page only, returns to the vote page and keeps
      everything sent. */
  lemma ResetReturnsToVotePage(m: Machine, k: Kiosk)
    requires Consistent(k)
    ensures k.page == SucessPage ==> Step(m, k, PressReset) == k.(page := VotePage)
    ensures k.page != SucessPage ==> Step(m, k, PressReset) == k
  {
  }

  /** "AM SCANAT" opens the scan page, whose loop ends on the success page exactly
      when some frame is acceptable; until then the kiosk stays on the scan page
      with nothing sent. */
  lemma ScanOutcome(m: Machine, k: Kiosk, frames: seq<Frame>)
    requires (k.page == BallotQRPage || k.page == ScanQRPage) && k.session.Some?
    ensures var e := if k.page == BallotQRPage then PressScanned(frames) else CameraFrames(frames);
      var r := Step(m, k, e);
      && (r.page == SucessPage <==> FirstAccepted(m, k.session.value.encryptedVote, frames).Some?)
      && (r.page != SucessPage ==> r == k.(page := ScanQRPage))
  {
  }

  /** Frames none of which is acceptable leave the kiosk scanning, having sent nothing. */
  lemma RejectedFramesKeepScanning(m: Machine, k: Kiosk, frames: seq<Frame>)
    requires k.page == ScanQRPage && k.session.Some?
    requires forall j :: 0 <= j < |frames| ==> !Acceptable(m, k.session.value.encryptedVote, frames[j])
    ensures Step(m, k, CameraFrames(frames)) == k
  {
  }

  /** The first acceptable frame of a concatenation is in the first part, or it
      is the first acceptable frame of the second part shifted. */
  lemma {:induction false} FirstAcceptedAppend(m: Machine, v: Bytes, a: seq<Frame>, b: seq<Frame>)
    ensures FirstAccepted(m, v, a).Some? ==> FirstAccepted(m, v, a + b) == FirstAccepted(m, v, a)
    ensures FirstAccepted(m, v, a).None? && FirstAccepted(m, v, b).None? ==> FirstAccepted(m, v, a + b).None?
    ensures FirstAccepted(m, v, a).None? && FirstAccepted(m, v, b).Some? ==>
      FirstAccepted(m, v, a + b) == Some(|a| + FirstAccepted(m, v, b).value)
  {
    if |a| > 0 {
      assert (a + b)[0] == a[0];
      assert (a + b)[1..] == a[1..] + b;
      FirstAcceptedAppend(m, v, a[1..], b);
    } else {
      assert a + b == b;
    }
  }

  /** Handing the scan loop its frames in two batches is the same as in one:
      the loop's decision depends only on the frames, in order. */
  lemma {:induction false} ScanInBatches(m: Machine, k: Kiosk, a: seq<Frame>, b: seq<Frame>)
    requires k.page == ScanQRPage && k.session.Some?
    ensures Step(m, Step(m, k, CameraFrames(a)), CameraFrames(b)) == Step(m, k, CameraFrames(a + b))
  {
    var v := k.session.value.encryptedVote;
    FirstAcceptedAppend(m, v, a, b);
    var fa := FirstAccepted(m, v, a);
    var fb := FirstAccepted(m, v, b);
    if fa.Some? {
      assert (a + b)[fa.value] == a[fa.value];
    } else if fb.Some? {
      assert (a + b)[|a| + fb.value] == b[fb.value];
    }
  }

  /** The controller's invariant: the pages past the vote page have an encoded
      vote, every vote sent passed the validity check, and the success page
      shows right after the current vote was sent. */
  ghost predicate Inv(m: Machine, k: Kiosk) {
    && Consistent(k)
    && (forall i :: 0 <= i < |k.sent| ==>
          m.isVoteValid(k.sent[i].encryptedVote, k.sent[i].voterSignature, k.sent[i].voterCertificate))
    && (k.page == SucessPage ==>
          && |k.sent| > 0
          && Last(k.sent).encryptedVote == k.session.value.encryptedVote
          && Last(k.sent).machineSignature == k.session.value.machineSignature)
  }

  /** The kiosk after a sequence of events. */
  function Run(m: Machine, k: Kiosk, events: seq<Event>): (r: Kiosk)
    requires Consistent(k)
    ensures Consistent(r)
  {
    if |events| == 0 then k
    else
      var k' := Run(m, k, events[..|events| - 1]);
      StepContract(m, k', events[|events| - 1]);
      Step(m, k', events[|events| - 1])
  }

  lemma {:induction false} StepKeepsInv(m: Machine, k: Kiosk, e: Event)
    requires Inv(m, k)
    ensures Inv(m, Step(m, k, e))
  {
    StepContract(m, k, e);
    var r := Step(m, k, e);
    if |r.sent| != |k.sent| {
      forall i | 0 <= i < |r.sent|
        ensures m.isVoteValid(r.sent[i].encryptedVote, r.sent[i].voterSignature, r.sent[i].voterCertificate)
      {
        if i < |k.sent| {
          assert r.sent[i] == k.sent[i];
        }
      }
    }
  }

  /** Whatever the voter and the camera do, the invariant holds from start-up on. */
  lemma {:induction false} RunKeepsInv(m: Machine, parties: seq<Ballot.Party>, events: seq<Event>)
    ensures Inv(m, Run(m, Initial(parties), events))
  {
    if |events| > 0 {
      RunKeepsInv(m, parties, events[..|events| - 1]);
      StepKeepsInv(m, Run(m, Initial(parties), events[..|events| - 1]), events[|events| - 1]);
    }
  }

  /** The success page is only ever shown after a vote carrying the kiosk's own
      encrypted vote and signature was sent with a credential the machine accepted. */
  lemma SucessMeansValidVoteSent(m: Machine, parties: seq<Ballot.Party>, events: seq<Event>)
    requires Run(m, Initial(parties), events).page == SucessPage
    ensures var k := Run(m, Initial(parties), events);
      && |k.sent| > 0
      && Last(k.sent).encryptedVote == k.session.value.encryptedVote
      && Last(k.sent).machineSignature == k.session.value.machineSignature
      && m.isVoteValid(Last(k.sent).encryptedVote, Last(k.sent).voterSignature, Last(k.sent).voterCertificate)
  {
    RunKeepsInv(m, parties, events);
  }

  /** Each event sends at most one vote, so the number of votes sent never
      exceeds the number of events. */
  lemma {:induction false} AtMostOneSendPerEvent(m: Machine, k: Kiosk, events: seq<Event>)
    requires Consistent(k)
    ensures k.sent <= Run(m, k, events).sent
    ensures |Run(m, k, events).sent| <= |k.sent| + |events|
  {
    if |events| > 0 {
      var init := events[..|events| - 1];
      AtMostOneSendPerEvent(m, k, init);
      StepContract(m, Run(m, k, init), events[|events| - 1]);
    }
  }
}

=== FILE: ledger.dfy ===
/**
  The world state that the vote-collector chaincode reads and writes, as the
  in-memory `ChaincodeStub` of the chaincode's unit tests provides it: a plain
  JavaScript object `states` mapping ledger keys to stored values.

  `putState` assigns a property, `getState` reads one (`undefined` when the key
  was never written, or when nothing was ever written), `deleteState` removes one
  and resolves to the key, and `getStateByRange` ignores its range bounds and
  yields the value of every property, in property enumeration order, of a
  shallow copy taken when its generator first runs.
  JavaScript enumerates (non-integer) property keys in insertion order, and
  re-assigning an existing property keeps its place; `order` records that order.
  `states` is taken to have no prototype: keys naming `Object.prototype`
  members (`__proto__`, `toString`, `constructor`, ...) behave here like any
  other key, which is not what the plain object does with them.
*/
module Ledger {
  import opened Wrappers

  datatype Stub<V> = Stub(order: seq<string>, values: map<string, V>)

  /** The keys in `order` are distinct and are exactly the stored keys. */
  ghost predicate Valid<V>(s: Stub<V>) {
    && (forall i, j :: 0 <= i < j < |s.order| ==> s.order[i] != s.order[j])
    && (forall k :: k in s.values <==> k in s.order)
  }

  /** The stub before any `putState`: `states` is not even allocated yet. */
  function Empty<V>(): (s: Stub<V>)
    ensures Valid(s)
    ensures forall k :: GetState(s, k) == None
  {
    Stub([], map[])
  }

  /** `getState(key)`: the stored value, or `None` for JavaScript's `undefined`. */
  function GetState<V>(s: Stub<V>, key: string): Option<V>
  {
    if key in s.values then Some(s.values[key]) else None
  }

  /** `putState(key, value)`: assign the property; a new key goes last in enumeration order. */
  function PutState<V>(s: Stub<V>, key: string, value: V): (r: Stub<V>)
    requires Valid(s)
    ensures Valid(r)
    ensures GetState(r, key) == Some(value)
    ensures forall k :: k != key ==> GetState(r, k) == GetState(s, k)
    ensures GetState(s, key).Some? ==> r.order == s.order
    ensures GetState(s, key).None? ==> r.order == s.order + [key]
  {
    if key in s.values then Stub(s.order, s.values[key := value])
    else Stub(s.order + [key], s.values[key := value])
  }

  /** `order` with every occurrence of `key` removed, the rest in the same order. */
  function RemoveKey(order: seq<string>, key: string): (r: seq<string>)
    ensures forall k :: k in r <==> k in order && k != key
    ensures |r| <= |order|
    ensures key !in order ==> r == order
  {
    if |order| == 0 then []
    else if order[0] == key then RemoveKey(order[1..], key)
    else [order[0]] + RemoveKey(order[1..], key)
  }

  lemma {:induction false} RemoveKeyDistinct(order: seq<string>, key: string)
    requires forall i, j :: 0 <= i < j < |order| ==> order[i] != order[j]
    ensures forall i, j :: 0 <= i < j < |RemoveKey(order, key)| ==> RemoveKey(order, key)[i] != RemoveKey(order, key)[j]
  {
    if |order| > 0 {
      var tail := order[1..];
      assert forall i, j :: 0 <= i < j < |tail| ==> tail[i] != tail[j] by {
        forall i, j | 0 <= i < j < |tail| ensures tail[i] != tail[j] {
          assert tail[i] == order[i + 1] && tail[j] == order[j + 1];
        }
      }
      RemoveKeyDistinct(tail, key);
      if order[0] == key {
        assert RemoveKey(order, key) == RemoveKey(tail, key);
      } else {
        var rest := RemoveKey(tail, key);
        assert order[0] !in tail by {
          forall j | 0 <= j < |tail| ensures tail[j] != order[0] {
            assert tail[j] == order[j + 1];
          }
        }
        assert order[0] !in rest;
        var r := [order[0]] + rest;
        assert RemoveKey(order, key) == r;
        forall i, j | 0 <= i < j < |r| ensures r[i] != r[j] {
          if i == 0 {
            assert r[j] == rest[j - 1];
            assert r[j] in rest;
            assert r[i] == order[0];
          } else {
            assert r[i] == rest[i - 1] && r[j] == rest[j - 1];
          }
        }
      }
    }
  }

  /** In a sequence of distinct keys, removing the key at position `i` closes the
      gap: the keys before it and the keys after it keep their order. */
  lemma {:induction false} RemoveKeyAt(order: seq<string>, key: string, i: nat)
    requires forall a, b :: 0 <= a < b < |order| ==> order[a] != order[b]
    requires i < |order| && order[i] == key
    ensures RemoveKey(order, key) == order[..i] + order[i + 1..]
  {
    var tail := order[1..];
    if i == 0 {
      assert key !in tail by {
        forall j | 0 <= j < |tail| ensures tail[j] != key {
          assert tail[j] == order[j + 1];
        }
      }
    } else {
      forall a, b | 0 <= a < b < |tail| ensures tail[a] != tail[b] {
        assert tail[a] == order[a + 1] && tail[b] == order[b + 1];
      }
      assert tail[i - 1] == key;
      RemoveKeyAt(tail, key, i - 1);
      assert order[..i] == [order[0]] + tail[..i - 1];
      assert order[i + 1..] == tail[i..];
    }
  }

  /** `deleteState(key)`: remove the property; the call resolves to `key`. */
  function DeleteState<V>(s: Stub<V>, key: string): (r: (Stub<V>, string))
    requires Valid(s)
    ensures Valid(r.0)
    ensures r.1 == key
    ensures GetState(r.0, key) == None
    ensures forall k :: k != key ==> GetState(r.0, k) == GetState(s, k)
    ensures key !in s.values ==> r.0.order == s.order
    ensures forall i :: 0 <= i < |s.order| && s.order[i] == key ==>
      r.0.order == s.order[..i] + s.order[i + 1..]
  {
    RemoveKeyDistinct(s.order, key);
    forall i | 0 <= i < |s.order| && s.order[i] == key
      ensures RemoveKey(s.order, key) == s.order[..i] + s.order[i + 1..]
    {
      RemoveKeyAt(s.order, key, i);
    }
    (Stub(RemoveKey(s.order, key), s.values - {key}), key)
  }

  /** The values stored under `order`, one per key, in that order. */
  function ValuesAt<V>(order: seq<string>, values: map<string, V>): (r: seq<V>)
    requires forall k :: k in order ==> k in values
    ensures |r| == |order|
    ensures forall i :: 0 <= i < |order| ==> r[i] == values[order[i]]
  {
    seq(|order|, i requires 0 <= i < |order| => values[order[i]])
  }

  /** `getStateByRange()`: the stored values in enumeration order, for every key
      whatever range is asked for. `s` is the state when the iteration starts:
      the copy is taken inside the generator, so a write between the call and the
      first `next()` is seen, and later writes are not. */
  function GetStateByRange<V>(s: Stub<V>): (r: seq<V>)
    requires Valid(s)
    ensures |r| == |s.order|
    ensures forall i :: 0 <= i < |r| ==> GetState(s, s.order[i]) == Some(r[i])
    ensures forall k :: k in s.values ==> exists i :: 0 <= i < |r| && s.order[i] == k && r[i] == s.values[k]
  {
    var r := ValuesAt(s.order, s.values);
    assert forall k :: k in s.values ==> exists i :: 0 <= i < |r| && s.order[i] == k && r[i] == s.values[k] by {
      forall k | k in s.values
        ensures exists i :: 0 <= i < |r| && s.order[i] == k && r[i] == s.values[k]
      {
        var i :| 0 <= i < |s.order| && s.order[i] == k;
        assert r[i] == s.values[k];
      }
    }
    r
  }

  /** A sequence of distinct keys has as many elements as the set of its keys. */
  lemma {:induction false} DistinctKeysCount(order: seq<string>, keys: set<string>)
    requires forall i, j :: 0 <= i < j < |order| ==> order[i] != order[j]
    requires forall k :: k in keys <==> k in order
    ensures |keys| == |order|
  {
    if |order| > 0 {
      var last := order[|order| - 1];
      var init := order[..|order| - 1];
      assert last !in init by {
        forall j | 0 <= j < |init| ensures init[j] != last {
          assert init[j] == order[j];
        }
      }
      forall k ensures k in keys - {last} <==> k in init {
        if k in init {
          var j :| 0 <= j < |init| && init[j] == k;
          assert order[j] == k;
        }
        if k in order && k != last {
          var j :| 0 <= j < |order| && order[j] == k;
          assert j < |order| - 1;
          assert init[j] == k;
        }
      }
      DistinctKeysCount(init, keys - {last});
    }
  }

  /** `getStateByRange` yields exactly one value per stored key. */
  lemma RangeYieldsOnePerKey<V>(s: Stub<V>)
    requires Valid(s)
    ensures |GetStateByRange(s)| == |s.values|
  {
    DistinctKeysCount(s.order, s.values.Keys);
  }

  /** Writing a key that was never written appends its value to the range;
      overwriting a key replaces its value in place. */
  lemma RangeAfterPut<V>(s: Stub<V>, key: string, value: V)
    requires Valid(s)
    ensures key !in s.values ==> GetStateByRange(PutState(s, key, value)) == GetStateByRange(s) + [value]
    ensures key in s.values ==>
      var before := GetStateByRange(s);
      var after := GetStateByRange(PutState(s, key, value));
      |after| == |before| &&
      forall i :: 0 <= i < |after| ==> after[i] == (if s.order[i] == key then value else before[i])
  {
    var after := GetStateByRange(PutState(s, key, value));
    var before := GetStateByRange(s);
    if key !in s.values {
      assert |after| == |before| + 1;
      forall i | 0 <= i < |after| ensures after[i] == (before + [value])[i] {
        if i < |before| {
          assert s.order[i] != key;
        }
      }
    }
  }

  /** Dropping position `i` of the keys drops the `i`-th value, provided the
      remaining keys keep their values. */
  lemma ValuesDropAt<V>(order: seq<string>, values: map<string, V>, values': map<string, V>, i: nat)
    requires i < |order| && forall k :: k in order ==> k in values
    requires forall k :: k in values' ==> k in values && values'[k] == values[k]
    requires forall k :: k in order[..i] + order[i + 1..] ==> k in values'
    ensures ValuesAt(order[..i] + order[i + 1..], values') == ValuesAt(order, values)[..i] + ValuesAt(order, values)[i + 1..]
  {
    var kept := order[..i] + order[i + 1..];
    var before := ValuesAt(order, values);
    var after := ValuesAt(kept, values');
    var dropped := before[..i] + before[i + 1..];
    forall j | 0 <= j < |after| ensures after[j] == dropped[j] {
      var k := if j < i then j else j + 1;
      assert kept[j] == order[k];
      assert dropped[j] == before[k];
    }
  }

  /** Deleting a stored key drops its value from the range and keeps every other
      value where it was relative to the rest; deleting an absent key changes nothing. */
  lemma RangeAfterDelete<V>(s: Stub<V>, key: string)
    requires Valid(s)
    ensures key !in s.values ==> GetStateByRange(DeleteState(s, key).0) == GetStateByRange(s)
    ensures forall i :: 0 <= i < |s.order| && s.order[i] == key ==>
      var before := GetStateByRange(s);
      GetStateByRange(DeleteState(s, key).0) == before[..i] + before[i + 1..]
  {
    var d := DeleteState(s, key).0;
    if key !in s.values {
      assert d == s;
    }
    forall i | 0 <= i < |s.order| && s.order[i] == key
      ensures GetStateByRange(d) == GetStateByRange(s)[..i] + GetStateByRange(s)[i + 1..]
    {
      assert d.order == s.order[..i] + s.order[i + 1..];
      ValuesDropAt(s.order, s.values, d.values, i);
    }
  }
}

=== FILE: qr_bitmap.dfy ===
/**
  `TextToImageEncode` of the phone app's QR activity: ask the barcode writer for a
  500 x 500 QR symbol, paint one pixel per module into a row-major `int[]`, and
  copy that array into a bitmap with `setPixels`. The writer is a parameter; the
  bitmap calls follow the checks `android.graphics.Bitmap` documents.
*/
module QrBitmap {
  import opened Wrappers
  import opened Arith

  /** `QRCodeSize`: the side the writer is asked for. */
  const QRCodeSize: int := 500

  /** The stride literally passed to `setPixels`. */
  const Stride: int := 500

  /** The largest Java `int`. */
  const IntMax: int := 0x7fff_ffff

  /** A writer's bit matrix: `get(x, y)` is the module in column `x`, row `y`. */
  datatype BitMatrix = BitMatrix(width: int, height: int, get: (int, int) -> bool)

  /** How the writer's `encode` call ends. */
  datatype EncodeOutcome = Encoded(matrix: BitMatrix) | IllegalArgument | WriterFailure

  /** The exceptions the method lets escape. `SizeOverflow` stands for whatever
      `new int[width * height]` does once the product exceeds a Java `int`. */
  datatype JavaException =
    | WriterException
    | IllegalArgumentException
    | ArrayIndexOutOfBoundsException
    | NegativeArraySizeException
    | SizeOverflow

  /** A bitmap as rows of colours. */
  datatype Bitmap = Bitmap(width: int, height: int, rows: seq<seq<int>>)

  /** `null`, a bitmap, or an exception. */
  datatype Outcome = NullBitmap | Drawn(bitmap: Bitmap) | Thrown(exception: JavaException)

  /** The colour of one module. */
  function Colour(m: BitMatrix, black: int, white: int, x: int, y: int): int {
    if m.get(x, y) then black else white
  }

  /** Row `y` of the image, left to right. */
  function Row(m: BitMatrix, black: int, white: int, y: int): (r: seq<int>)
    requires 0 <= m.width
    ensures |r| == m.width
  {
    seq(m.width, x requires 0 <= x < m.width => Colour(m, black, white, x, y))
  }

  /** The first `h` rows one after another: the image in row-major order. */
  function Rendered(m: BitMatrix, black: int, white: int, h: int): (r: seq<int>)
    requires 0 <= m.width && 0 <= h
    ensures |r| == h * m.width
  {
    if h == 0 then []
    else
      MulStep(h - 1, m.width);
      Rendered(m, black, white, h - 1) + Row(m, black, white, h - 1)
  }

  /** Cell `(x, y)` of the image sits at `y * width + x`. */
  lemma {:induction false} RenderedAt(m: BitMatrix, black: int, white: int, h: int, x: int, y: int)
    requires 0 <= x < m.width && 0 <= y < h
    ensures 0 <= y * m.width + x < h * m.width
    ensures Rendered(m, black, white, h)[y * m.width + x] == Colour(m, black, white, x, y)
  {
    MulStep(y, m.width);
    MulMono(y + 1, h, m.width);
    if y < h - 1 {
      MulMono(y + 1, h - 1, m.width);
      RenderedAt(m, black, white, h - 1, x, y);
    }
  }

  /** Every index of the image is some cell's `y * width + x`: nothing is left unpainted. */
  lemma {:induction false} EveryIndexIsACell(w: int, h: int, i: int) returns (x: int, y: int)
    requires 0 <= w && 0 <= h && 0 <= i < h * w
    ensures 0 <= x < w && 0 <= y < h && i == y * w + x
  {
    MulStep(h - 1, w);
    if i < (h - 1) * w {
      x, y := EveryIndexIsACell(w, h - 1, i);
    } else {
      x, y := i - (h - 1) * w, h - 1;
    }
  }

  /** Distinct cells have distinct indices: no pixel is painted twice. */
  lemma CellIndexInjective(w: int, x1: int, y1: int, x2: int, y2: int)
    requires 0 <= x1 < w && 0 <= x2 < w && 0 <= y1 && 0 <= y2
    requires y1 * w + x1 == y2 * w + x2
    ensures x1 == x2 && y1 == y2
  {
    if y1 < y2 {
      MulStep(y1, w);
      MulMono(y1 + 1, y2, w);
    } else if y2 < y1 {
      MulStep(y2, w);
      MulMono(y2 + 1, y1, w);
    }
  }

  /** The nested loop of `TextToImageEncode`: row `y` goes to `offset = y * width`,
      column `x` to `offset + x`, black for a set module and white otherwise. */
  method FillPixels(m: BitMatrix, black: int, white: int) returns (pixels: seq<int>)
    requires 0 <= m.width && 0 <= m.height && m.width * m.height <= IntMax
    ensures |pixels| == m.width * m.height
    ensures pixels == Rendered(m, black, white, m.height)
  {
    var w, h := m.width, m.height;
    ghost var image := Rendered(m, black, white, h);
    var a := new int[w * h];
    var y := 0;
    while y < h
      invariant 0 <= y <= h
      invariant y * w <= a.Length == |image|
      invariant forall i :: 0 <= i < y * w ==> a[i] == image[i]
    {
      var offset := y * w;
      MulStep(y, w);
      MulMono(y + 1, h, w);
      var x := 0;
      while x < w
        invariant 0 <= x <= w
        invariant forall i :: 0 <= i < offset + x ==> a[i] == image[i]
      {
        RenderedAt(m, black, white, h, x, y);
        a[offset + x] := if m.get(x, y) then black else white;
        x := x + 1;
      }
      y := y + 1;
    }
    pixels := a[..];
  }

  function Abs(n: int): nat {
    if n < 0 then -n else n
  }

  /** Where scan line `y` starts: never before the array, and no later than the last one. */
  lemma ScanLineStart(stride: int, w: int, h: int, y: int)
    requires 0 < w <= Abs(stride) && 0 <= y < h && 0 <= (h - 1) * stride
    ensures 0 <= y * stride <= (h - 1) * stride
  {
    if stride >= 0 {
      MulMono(y, h - 1, stride);
    } else if h > 1 {
      MulMono(1, h - 1, -stride);
    }
  }

  /** Row `y` of the bitmap after `setPixels(pixels, 0, stride, 0, 0, w, h)`. */
  function ScanLine(pixels: seq<int>, stride: int, w: int, h: int, y: int): (r: seq<int>)
    requires 0 < w <= Abs(stride) && 0 <= y < h && 0 <= (h - 1) * stride && (h - 1) * stride + w <= |pixels|
    ensures |r| == w
    ensures forall x :: 0 <= x < w ==> r[x] == pixels[y * stride + x]
  {
    ScanLineStart(stride, w, h, y);
    seq(w, x requires 0 <= x < w => pixels[y * stride + x])
  }

  /** `setPixels(pixels, 0, stride, 0, 0, w, h)` on a fresh `w` x `h` bitmap: the
      stride must be at least the width, and the last scan line must end inside
      the array. */
  function SetPixels(pixels: seq<int>, stride: int, w: int, h: int): (r: Result<seq<seq<int>>, JavaException>)
    requires 0 < w && 0 < h
    ensures r == Err(IllegalArgumentException) <==> Abs(stride) < w
    ensures r == Err(ArrayIndexOutOfBoundsException) <==>
      Abs(stride) >= w && ((h - 1) * stride < 0 || (h - 1) * stride + w > |pixels|)
    ensures r.Ok? ==> |r.value| == h && forall y :: 0 <= y < h ==>
      |r.value[y]| == w && forall x :: 0 <= x < w ==> r.value[y][x] == pixels[y * stride + x]
  {
    if Abs(stride) < w then Err(IllegalArgumentException)
    else if (h - 1) * stride < 0 || (h - 1) * stride + w > |pixels| then Err(ArrayIndexOutOfBoundsException)
    else Ok(ScanLines(pixels, stride, w, h))
  }

  /** Every scan line of an accepted `setPixels` call. */
  function ScanLines(pixels: seq<int>, stride: int, w: int, h: int): (r: seq<seq<int>>)
    requires 0 < w <= Abs(stride) && 0 < h && 0 <= (h - 1) * stride && (h - 1) * stride + w <= |pixels|
    ensures |r| == h && forall y :: 0 <= y < h ==>
      |r[y]| == w && forall x :: 0 <= x < w ==> r[y][x] == pixels[y * stride + x]
  {
    var r := seq(h, y requires 0 <= y < h => ScanLine(pixels, stride, w, h, y));
    assert forall y :: 0 <= y < h ==> r[y] == ScanLine(pixels, stride, w, h, y);
    r
  }

  /** With the fixed stride of 500, `setPixels` accepts the painted array exactly
      when the matrix is 500 wide or is a single row at most 500 wide, and then
      the bitmap shows every module where the matrix has it. */
  lemma {:induction false} FixedStrideLayout(m: BitMatrix, black: int, white: int)
    requires 0 < m.width && 0 < m.height
    ensures var r := SetPixels(Rendered(m, black, white, m.height), Stride, m.width, m.height);
      && (r.Ok? <==> m.width == Stride || (m.height == 1 && m.width <= Stride))
      && (r.Ok? ==> forall x, y :: 0 <= x < m.width && 0 <= y < m.height ==>
            r.value[y][x] == Colour(m, black, white, x, y))
  {
    var w, h := m.width, m.height;
    var pixels := Rendered(m, black, white, h);
    var r := SetPixels(pixels, Stride, w, h);
    MulStep(h - 1, w);
    if w < Stride && h > 1 {
      assert (h - 1) * w < (h - 1) * Stride by {
        assert (h - 1) * (Stride - w) > 0 by {
          MulMono(1, h - 1, Stride - w);
        }
      }
    }
    if w == Stride {
      assert (h - 1) * Stride + w == h * w;
    }
    if r.Ok? {
      forall x, y | 0 <= x < w && 0 <= y < h ensures r.value[y][x] == Colour(m, black, white, x, y) {
        RenderedAt(m, black, white, h, x, y);
        if w != Stride {
          assert y == 0;
        }
      }
    }
  }

  /** `TextToImageEncode(value)`, with the writer, the colour resources and the
      bitmap's pixel store as parameters and results. */
  method TextToImageEncode(encode: (string, int, int) -> EncodeOutcome, value: string, black: int, white: int)
    returns (r: Outcome)
    ensures encode(value, QRCodeSize, QRCodeSize).IllegalArgument? <==> r == NullBitmap
    ensures encode(value, QRCodeSize, QRCodeSize).WriterFailure? <==> r == Thrown(WriterException)
    ensures r.Drawn? ==>
      var m := encode(value, QRCodeSize, QRCodeSize).matrix;
      && encode(value, QRCodeSize, QRCodeSize).Encoded?
      && r.bitmap.width == m.width && r.bitmap.height == m.height
      && |r.bitmap.rows| == m.height
      && forall x, y :: 0 <= x < m.width && 0 <= y < m.height ==>
           |r.bitmap.rows[y]| == m.width && r.bitmap.rows[y][x] == Colour(m, black, white, x, y)
    ensures encode(value, QRCodeSize, QRCodeSize).Encoded? ==>
      var m := encode(value, QRCodeSize, QRCodeSize).matrix;
      0 < m.width && 0 < m.height && m.width * m.height <= IntMax ==>
        (r.Drawn? <==> m.width == Stride || (m.height == 1 && m.width <= Stride))
  {
    var enc := encode(value, QRCodeSize, QRCodeSize);
    match enc
    case IllegalArgument => return NullBitmap;
    case WriterFailure => return Thrown(WriterException);
    case Encoded(m) =>
      var w, h := m.width, m.height;
      if w * h < 0 {
        return Thrown(NegativeArraySizeException);
      }
      if w * h > IntMax {
        return Thrown(SizeOverflow);
      }
      if w <= 0 || h <= 0 {
        // the loops paint nothing and `createBitmap` refuses an empty bitmap
        return Thrown(IllegalArgumentException);
      }
      var pixels := FillPixels(m, black, white);
      FixedStrideLayout(m, black, white);
      match SetPixels(pixels, Stride, w, h)
      case Err(e) => return Thrown(e);
      case Ok(rows) => return Drawn(Bitmap(w, h, rows));
  }
}

=== FILE: vote_collector.dfy ===
/**
  The vote-collector chaincode: a small state machine over the world state with
  two keys, "stage" and "vote_tally". `instantiate` opens voting, `submitVote`
  adds an encrypted ballot to the encrypted tally while voting is ongoing, and
  `retrieveTally` reads the tally back.
*/
module VoteCollector {
  import opened Wrappers
  import opened Ledger
  import opened Homomorphic

  /** `VotingStageEnum`. */
  datatype VotingStage = CLOSED | ONGOING | ENDED {
    function Code(): int {
      match this
      case CLOSED => 0
      case ONGOING => 1
      case ENDED => 2
    }
  }

  /** A value the stub stores: `instantiate` stores the number 1, `submitVote` the
      base64 ciphertext strings it is given or computes. */
  datatype StateValue = Number(n: int) | Text(blob: Blob)

  type World = Stub<StateValue>

  const StageKey: string := "stage"
  const TallyKey: string := "vote_tally"
  const NotOngoingMessage: string := "voting is not ongoing"

  /** `Thrown(m)` is an `Error` the chaincode raises with message `m`; a ciphertext
      SEAL cannot load makes the library itself throw. */
  datatype ContractError = Thrown(message: string) | SealLoadFailure

  /** `stage !== VotingStageEnum.ONGOING` is false exactly for the number 1. */
  predicate IsOngoing(w: World) {
    GetState(w, StageKey) == Some(Number(ONGOING.Code()))
  }

  /** `!previous || previous.length === 0`: `undefined`, the number 0 and the empty
      string are falsy; a number has no `length`. */
  predicate NoTally(v: Option<StateValue>) {
    v.None? || v == Some(Number(0)) || v == Some(Text(EmptyString))
  }

  /** Loading a stored value as a ciphertext; only strings can be loaded. */
  function LoadValue(v: StateValue): (r: Option<seq<nat>>)
    ensures r.Some? <==> v.Text? && Load(v.blob).Some?
    ensures r.Some? ==> r.value == v.blob.slots
  {
    if v.Text? then Load(v.blob) else None
  }

  /** A tally `submitVote` stored with `save()` loads back, on the next ballot, as
      the very slots it was saved with. */
  lemma SavedTallyLoads(slots: seq<nat>)
    requires |slots| == SlotCount
    ensures LoadValue(Text(Ciphertext(slots))) == Some(slots)
  {
  }

  /** `instantiate`: open voting. */
  function Instantiate(w: World): (r: World)
    requires Valid(w)
    ensures Valid(r)
    ensures IsOngoing(r)
    ensures forall k :: k != StageKey ==> GetState(r, k) == GetState(w, k)
  {
    PutState(w, StageKey, Number(ONGOING.Code()))
  }

  /** `submitVote(vote)`: refuse unless voting is ongoing; store the first ballot
      as the tally; otherwise store the homomorphic sum of tally and ballot. */
  function SubmitVote(t: PlainModulus, w: World, vote: Blob): (r: Result<World, ContractError>)
    requires Valid(w)
    ensures !IsOngoing(w) <==> r == Err(Thrown(NotOngoingMessage))
    ensures r.Ok? ==> Valid(r.value)
    ensures r.Ok? ==> forall k :: k != TallyKey ==> GetState(r.value, k) == GetState(w, k)
    ensures IsOngoing(w) && NoTally(GetState(w, TallyKey)) ==>
      r == Ok(PutState(w, TallyKey, Text(vote)))
    ensures IsOngoing(w) && !NoTally(GetState(w, TallyKey)) ==>
      var previous := GetState(w, TallyKey).value;
      (r.Ok? <==> LoadValue(previous).Some? && Load(vote).Some?) &&
      (r.Ok? ==> GetState(r.value, TallyKey) == Some(Text(Ciphertext(Add(t, LoadValue(previous).value, Load(vote).value)))))
  {
    if !IsOngoing(w) then Err(Thrown(NotOngoingMessage))
    else
      var previous := GetState(w, TallyKey);
      if NoTally(previous) then Ok(PutState(w, TallyKey, Text(vote)))
      else
        match (LoadValue(previous.value), Load(vote))
        case (Some(tally), Some(ballot)) =>
          Ok(PutState(w, TallyKey, Text(Ciphertext(Add(t, tally, ballot)))))
        case _ => Err(SealLoadFailure)
  }

  /** `retrieveTally`: whatever is stored under "vote_tally", with no stage check. */
  function RetrieveTally(w: World): (r: Option<StateValue>)
    ensures r.Some? <==> TallyKey in w.values
  {
    GetState(w, TallyKey)
  }

  /** One chaincode invocation. */
  datatype Transaction = InstantiateTx | SubmitVoteTx(vote: Blob) | RetrieveTallyTx

  /** The committed world state, the value the invocation returned, and the error
      it raised. A failed invocation commits nothing. */
  datatype Receipt = Receipt(world: World, returned: Option<StateValue>, error: Option<ContractError>)

  function Execute(t: PlainModulus, w: World, tx: Transaction): (r: Receipt)
    requires Valid(w)
    ensures Valid(r.world)
    ensures r.error.Some? ==> r.world == w
    ensures r.error.Some? <==> tx.SubmitVoteTx? && SubmitVote(t, w, tx.vote).Err?
    ensures tx.RetrieveTallyTx? ==> r.world == w && r.returned == GetState(w, TallyKey)
    ensures !tx.InstantiateTx? ==> GetState(r.world, StageKey) == GetState(w, StageKey)
    ensures IsOngoing(w) ==> IsOngoing(r.world)
  {
    match tx
    case InstantiateTx => Receipt(Instantiate(w), None, None)
    case SubmitVoteTx(vote) =>
      (match SubmitVote(t, w, vote)
       case Ok(w') => Receipt(w', None, None)
       case Err(e) => Receipt(w, None, Some(e)))
    case RetrieveTallyTx => Receipt(w, RetrieveTally(w), None)
  }

  /** The world state after a sequence of invocations. */
  function Run(t: PlainModulus, w: World, txs: seq<Transaction>): (r: World)
    requires Valid(w)
    ensures Valid(r)
  {
    if |txs| == 0 then w
    else Execute(t, Run(t, w, txs[..|txs| - 1]), txs[|txs| - 1]).world
  }

  /** Nothing in the contract closes or ends voting: once ongoing, always ongoing. */
  lemma {:induction false} OngoingIsPermanent(t: PlainModulus, w: World, txs: seq<Transaction>)
    requires Valid(w) && IsOngoing(w)
    ensures IsOngoing(Run(t, w, txs))
  {
    if |txs| > 0 {
      OngoingIsPermanent(t, w, txs[..|txs| - 1]);
    }
  }

  /** Starting from an empty ledger, "stage" is either unset or ONGOING: no
      invocation ever stores CLOSED or ENDED. */
  lemma {:induction false} StageIsUnsetOrOngoing(t: PlainModulus, txs: seq<Transaction>)
    ensures var stage := GetState(Run(t, Empty(), txs), StageKey);
            stage.None? || stage == Some(Number(ONGOING.Code()))
  {
    if |txs| > 0 {
      StageIsUnsetOrOngoing(t, txs[..|txs| - 1]);
    }
  }

  /** Submitting ballots one after another, stopping at the first failure. */
  function SubmitAll(t: PlainModulus, w: World, votes: seq<Blob>): (r: Result<World, ContractError>)
    requires Valid(w)
    ensures r.Ok? ==> Valid(r.value)
    ensures r.Ok? ==> GetState(r.value, StageKey) == GetState(w, StageKey)
  {
    if |votes| == 0 then Ok(w)
    else
      match SubmitAll(t, w, votes[..|votes| - 1])
      case Ok(w') => SubmitVote(t, w', votes[|votes| - 1])
      case Err(e) => Err(e)
  }

  /** `SubmitAll` is the last submission applied after all earlier ones. */
  lemma SubmitAllLast(t: PlainModulus, w: World, votes: seq<Blob>)
    requires Valid(w) && |votes| > 0
    requires SubmitAll(t, w, votes[..|votes| - 1]).Ok?
    ensures SubmitAll(t, w, votes) == SubmitVote(t, SubmitAll(t, w, votes[..|votes| - 1]).value, votes[|votes| - 1])
  {
  }

  /** The first ballot submitted while no tally is stored becomes the tally of that one ballot. */
  lemma FirstBallotStartsTally(t: PlainModulus, w: World, vote: Blob, party: nat)
    requires Valid(w) && IsOngoing(w) && GetState(w, TallyKey).None?
    requires VoteFor(vote, party)
    ensures SubmitVote(t, w, vote).Ok?
    ensures GetState(SubmitVote(t, w, vote).value, TallyKey) == Some(Text(Ciphertext(CountVector(t, [party]))))
  {
    SingleVoteIsTally(t, vote, party);
    assert vote == Ciphertext(CountVector(t, [party]));
  }

  /** A ballot submitted onto a correct tally of `parties` leaves a correct tally of `parties + [party]`. */
  lemma NextBallotExtendsTally(t: PlainModulus, w: World, vote: Blob, parties: seq<nat>, party: nat)
    requires Valid(w) && IsOngoing(w)
    requires GetState(w, TallyKey) == Some(Text(Ciphertext(CountVector(t, parties))))
    requires VoteFor(vote, party)
    ensures SubmitVote(t, w, vote).Ok?
    ensures GetState(SubmitVote(t, w, vote).value, TallyKey) == Some(Text(Ciphertext(CountVector(t, parties + [party]))))
  {
    var tally := CountVector(t, parties);
    SavedTallyLoads(tally);
    assert Load(vote) == Some(vote.slots);
    AddVoteToTally(t, parties, vote, party);
  }

  /** The tally law: once voting is open and no tally is stored, submitting one
      encrypted one-hot ballot per voter leaves a tally whose slot `i` is the
      number of ballots for party `i` (modulo the plain modulus). */
  lemma {:induction false} TallyCountsBallots(t: PlainModulus, w: World, votes: seq<Blob>, parties: seq<nat>)
    requires Valid(w) && IsOngoing(w) && GetState(w, TallyKey).None?
    requires |votes| == |parties|
    requires forall k :: 0 <= k < |votes| ==> VoteFor(votes[k], parties[k])
    ensures SubmitAll(t, w, votes).Ok?
    ensures |votes| > 0 ==>
      GetState(SubmitAll(t, w, votes).value, TallyKey) == Some(Text(Ciphertext(CountVector(t, parties))))
  {
    if |votes| > 0 {
      var n := |votes| - 1;
      TallyCountsBallots(t, w, votes[..n], parties[..n]);
      var w' := SubmitAll(t, w, votes[..n]).value;
      SubmitAllLast(t, w, votes);
      if n == 0 {
        assert parties == [parties[0]];
        FirstBallotStartsTally(t, w', votes[0], parties[0]);
      } else {
        PrefixAndLast(parties);
        NextBallotExtendsTally(t, w', votes[n], parties[..n], parties[n]);
      }
    }
  }

  /** Any interleaving of the same ballots gives the same tally. */
  lemma TallyIndependentOfOrder(t: PlainModulus, w: World, votes1: seq<Blob>, parties1: seq<nat>,
                                votes2: seq<Blob>, parties2: seq<nat>)
    requires Valid(w) && IsOngoing(w) && GetState(w, TallyKey).None?
    requires |votes1| == |parties1| > 0 && |votes2| == |parties2|
    requires forall k :: 0 <= k < |votes1| ==> VoteFor(votes1[k], parties1[k])
    requires forall k :: 0 <= k < |votes2| ==> VoteFor(votes2[k], parties2[k])
    requires multiset(parties1) == multiset(parties2)
    ensures SubmitAll(t, w, votes1).Ok? && SubmitAll(t, w, votes2).Ok?
    ensures GetState(SubmitAll(t, w, votes1).value, TallyKey) == GetState(SubmitAll(t, w, votes2).value, TallyKey)
  {
    assert |parties2| > 0 by {
      assert parties1[0] in multiset(parties1);
    }
    TallyCountsBallots(t, w, votes1, parties1);
    TallyCountsBallots(t, w, votes2, parties2);
    CountVectorOrderIndependent(t, parties1, parties2);
  }
}

=== FILE: vote_collector_scenarios.dfy ===
/**
  The scenarios of the vote-collector unit tests, stated over the model: a
  submission before `instantiate` is refused, and the tally of the ten-ballot
  test decrypts to the expected per-party counts.
*/
module VoteCollectorScenarios {
  import opened Wrappers
  import opened Ledger
  import opened Homomorphic
  import opened VoteCollector

  /** The parties of the unit test's ballots, in the order it submits them. */
  const ScenarioParties: seq<nat> := [2, 4, 0, 0, 2, 4, 4, 4, 2, 4]

  lemma ScenarioPartyCounts(ps: seq<nat>)
    requires ps == ScenarioParties
    ensures Count(ps, 0) == 2 && Count(ps, 1) == 0 && Count(ps, 2) == 3 && Count(ps, 3) == 0 && Count(ps, 4) == 5
  {
    var m := multiset(ps);
    forall i | 0 <= i < 5 ensures Count(ps, i) == m[i] {
      CountIsMultiplicity(ps, i);
    }
    assert m[0] == 2 && m[1] == 0 && m[2] == 3 && m[3] == 0 && m[4] == 5;
  }

  lemma ScenarioCounts(t: PlainModulus, ps: seq<nat>)
    requires Count(ps, 0) == 2 && Count(ps, 1) == 0 && Count(ps, 2) == 3 && Count(ps, 3) == 0 && Count(ps, 4) == 5
    ensures CountVector(t, ps)[..5] == [2, 0, 3, 0, 5]
  {
    var v := CountVector(t, ps);
    var expected: seq<nat> := [2, 0, 3, 0, 5];
    forall i | 0 <= i < 5 ensures v[i] == expected[i] {
      assert Count(ps, i) == expected[i];
      ModUnique(expected[i], t, 0, expected[i]);
    }
    assert v[..5] == expected;
  }

  /** The unit test's scenario: after `instantiate`, two ballots for party 0, three
      for party 2 and five for party 4, interleaved as the test submits them, leave
      a tally of 4096 slots that begins 2, 0, 3, 0, 5. */
  lemma RetrieveTallyScenario(t: PlainModulus, vote0: Blob, vote2: Blob, vote4: Blob)
    requires VoteFor(vote0, 0) && VoteFor(vote2, 2) && VoteFor(vote4, 4)
    ensures var r := SubmitAll(t, Instantiate(Empty()), [vote2, vote4, vote0, vote0, vote2, vote4, vote4, vote4, vote2, vote4]);
            && r.Ok?
            && RetrieveTally(r.value).Some?
            && RetrieveTally(r.value).value.Text?
            && RetrieveTally(r.value).value.blob.Ciphertext?
            && |RetrieveTally(r.value).value.blob.slots| == 4096
            && RetrieveTally(r.value).value.blob.slots[..5] == [2, 0, 3, 0, 5]
  {
    var votes := [vote2, vote4, vote0, vote0, vote2, vote4, vote4, vote4, vote2, vote4];
    TallyCountsBallots(t, Instantiate(Empty()), votes, ScenarioParties);
    ScenarioPartyCounts(ScenarioParties);
    ScenarioCounts(t, ScenarioParties);
  }

  /** The unit test's first refusal: submitting before `instantiate`. */
  lemma SubmitBeforeInstantiateFails(t: PlainModulus, vote: Blob)
    ensures SubmitVote(t, Empty(), vote) == Err(Thrown("voting is not ongoing"))
  {
  }
}

=== FILE: wrappers.dfy ===
/** Failure-carrying datatypes shared by the rest of the model. */
module Wrappers {

  /** A value that may be missing: JavaScript's `undefined`, Python's `None`, Java's `null`. */
  datatype Option<+T> = None | Some(value: T)

  /** The outcome of an operation that either produces a value or raises an error. */
  datatype Result<+T, +E> = Ok(value: T) | Err(error: E)
}
